=== FILE: README.md ===
# OctopusEnergyMonitor pulse pipeline, modelled in Dafny

OctopusEnergyMonitor watches an electricity meter's LED with a light sensor. Every
blink is one pulse (1/1005 kWh). The monitor appends one CSV line per pulse to a
per-day log, and the dashboard folds a day's log and a 48-slot tariff table into
energy used and money spent. This project models that pipeline as pure functions:

- **Clock** covers local time, taken to be UTC, and the 48 half-hour
  tariff slots. It also covers their `HH:MM` labels (`TIMES`) and the slot stamp the
  monitor files each pulse under. That stamp is dated with the day passed in as
  "today", not with the reading's own date.
- **Records** covers the five-field log line: lux, epoch, wall time, slot stamp and origin.
- **LogFiles** covers Python's text-mode line iteration over a file, where "\n", "\r\n"
  and a lone "\r" all end a line and are read as "\n". It also covers the newline counter,
  the `has_readings` and `is_first_input_to_csv` checks, and the corruption filter
  applied to the two newest logs.
- **Monitor** covers one pass of the sensor loop as a state transition over an
  explicit directory (`map<day, seq<Record>>`). This includes debouncing, shifting the
  time history, gap smoothing with interpolated "fixed" pulses, seeding a new day
  file with the previous pulse, and copying a day's first pulses into the previous
  day's file. Both loop variants are covered through a configuration; both bind the
  same starting history (times -1, lux 0, origin "fixed", counter 0) before the loop.
- **Aggregate** covers the full scan `calculate_total_cost` and the incremental
  `calculate_total_cost_and_power_faster`, with the built-in `PRICES` table.
- **Windows** covers the nested 60/30/5-minute trailing windows and the backward scan
  over the newest log lines.
- **Dashboard** covers the live wattage from the two newest pulses and the day-of-month
  suffix.
- **Tariffs** covers the supplier's price intervals turned into a slot-to-price table
  for Agile, Go, Tracker and Flexible. It also covers the sorted price file and reading
  it back, and where `get_energy_prices` takes its table from.
- **Generate** covers the synthetic log generator, the usage table built from the
  supplier's consumption intervals, the concise usage file, and the per-tariff
  comparison sums.

Amounts are `real`s and counts are `nat`s. A half-hour slot is a `SlotIndex` (0..47).
A time of day is a `Minute` (0..1439). Python's `round`/`np.round` is rounding half to
even. Failures the source raises are explicit results:
- `Decision.DivisionByZero` in the smoothing;
- `Finish.ZeroWatts` for a slot rounding to 0 W;
- `UsageError`, and `StatsError` (including no days at all and a zero-kWh total);
- `None` from `ApiPricesToDict` for an empty Tracker reply.

In Go mode the full scan looks slots that are missing from the price file up in
`GO_TIME_PRICES_MAP` by an integer index. That map is keyed by strings, so the lookup
always fails and the failure is swallowed. The model follows the code: such a slot
costs nothing (`Fallback.ZeroCost`). The incremental scan has no Go branch and prices
missing slots from `PRICES`. The two therefore agree in Go mode only when every slot
is priced (`Aggregate.FasterAgreesWithFullScan`).

## Model

| member | source | states |
|---|---|---|
| Numbers.RoundHalfEven | utils/monitor.py:171 | the result is within 0.5 of the input, and on a tie it is even (numpy rounding) |
| Clock.UnitDatetime | utils/monitor.py:89-100 | the slot stamp is dated with the given today and its slot contains the reading's minute of the day |
| Clock.TimesGrid | utils/prices.py:12-61 | label i is two digits of i/2, a colon, then "00" or "30" by the parity of i |
| Clock.TimesStrictlyIncreasing | energy_monitor.py:45-94 | the 48 labels are distinct and strictly increasing in string order |
| Clock.LabelOrdered | utils/prices.py:182 | string order of HH:MM labels is time order, so sorting keys by string sorts them by time |
| Clock.UnitDatetimeIsTimesLabel | utils/monitor.py:89-100 | the stamp's time of day is one of the 48 TIMES labels |
| Clock.FirstCovering | utils/prices.py:230-237 | the index found is the first interval covering the time; None means that no interval covers it |
| Text.IsAscii | utils/file.py:7-17 | "UTF-8 length equals character count" holds exactly when every character is below U+0080 |
| Text.FieldCount | utils/file.py:36 | `split(",")` yields one more field than there are commas, and no field holds a comma |
| Text.JoinSplit | utils/file.py:36 | joining the pieces of `split(",")` with commas gives the line back |
| Text.SplitJoin | utils/file.py:36 | splitting comma-free fields joined with commas gives the same fields back |
| Records.RecordLineShape | utils/monitor.py:120-130 | every written line has exactly five comma fields, is ASCII, and ends in its only newline |
| LogFiles.ReadText | utils/file.py:34-35 | the text read in text mode holds no carriage return, is empty exactly when the file is, and is the file's text unchanged when that has no carriage return |
| LogFiles.LineEnds | utils/file.py:35 | "\n", "\r\n" and a lone "\r" each end the current line, and the line is read as ending in "\n" |
| LogFiles.CarriageReturnEndsLine | utils/file.py:34-37 | "1,2,3\r4,5,6\n" iterates as two three-field lines, so the repair drops both |
| LogFiles.FileLinesRoundTrip | utils/file.py:34-37 | writing the iterated lines back gives the text read, which is the file itself when it has no carriage return; the lines are well formed and hold no carriage return |
| LogFiles.LinesConcat | utils/file.py:35 | splitting a translated text at "\n" and joining the lines back gives the text; every line but the last ends in a newline |
| LogFiles.ConcatLines | utils/file.py:35-37 | joining well-formed lines and splitting again gives the same lines |
| LogFiles.LineCountsAgree | utils/file.py:59-78 | the newline-byte count never exceeds the iterated line count; without carriage returns it is equal when the text is empty or ends in a newline, and one less otherwise |
| LogFiles.HasReadings | utils/file.py:81-91 | a file has readings exactly when it is non-empty, that is, when iterating it yields at least one line |
| LogFiles.HasReadingsLegacy | energy_monitor.py:353-360 | the older check is the exact negation of `is_first_input_to_csv` (more than two lines) |
| LogFiles.FilterLinesSpec | utils/file.py:31-39 | the kept lines are an order-preserving subsequence of the input; every five-field ASCII line is kept as often as it occurs, and nothing else is |
| LogFiles.FilterLinesIdempotent | utils/file.py:36-37 | filtering twice keeps the same lines as filtering once |
| LogFiles.FixTextCorruptionIdempotent | utils/file.py:20-39 | repairing a repaired file changes nothing |
| LogFiles.FixLatestTwo | utils/file.py:52-56 | the first min(2, n) files of the newest-first list are repaired, and the rest are unchanged |
| LogFiles.FixLatestTwoIdempotent | utils/file.py:52-56 | repairing the two newest files a second time changes nothing |
| LogFiles.RepairKeepsWrittenLog | energy_monitor.py:671-683 | a log made only of monitor-written lines survives the corruption filter unchanged |
| LogFiles.LogTextLines | utils/monitor.py:59-75 | a written log reads back line by line as its records; its newline count is its record count, and `is_first_input_to_csv` holds exactly when it holds at most two records |
| Monitor.Append | utils/monitor.py:120-130 | appending adds the record at the end of that day's file (creating it) and leaves every other file unchanged |
| Monitor.Decide | utils/monitor.py:163-171 | smoothing fires exactly when both history times are positive, the interval exceeds multiplier times the previous one and the counter is below the limit; a zero previous interval is the division-by-zero outcome; otherwise the segment count is within 0.5 of the ratio, and even on a tie (numpy rounding) |
| Monitor.FixedPulses | utils/monitor.py:171-179 | there are max(0, segments - 1) synthesized pulses, with lux (lux + previous lux)/2 + i, at equal steps from the previous time |
| Monitor.FixedPulsesFillGap | utils/monitor.py:175-179 | the synthesized times are strictly increasing and strictly between the previous and current times |
| Monitor.WriteFixedPulses | utils/monitor.py:175-221 | writing the synthesized pulses only appends; the history then ends at the last synthesized pulse, which is recorded as "fixed" |
| Monitor.Step | utils/monitor.py:143-262 | a loop pass only appends to files, and it ignores the reading exactly when the reading is dark or within the minimum lux difference |
| Monitor.FirstBrightReading | utils/monitor.py:136-259 | from the start the loop sets up (times -1, lux 0, counter 0), the first reading that passes the debounce is logged: it is appended to its own day's file and nowhere else, and becomes the current time and remembered lux with the counter still 0 |
| Monitor.QuietReadingChangesNothing | utils/monitor.py:152-155 | a dark or debounced reading leaves the state and every file untouched |
| Monitor.AcceptedPulseShiftsHistory | utils/monitor.py:157-160 | the reading's time becomes the current time; a logged reading's lux is remembered, while a fault keeps the old lux; with no synthesized pulse the history moves along by one with origin "original", otherwise it ends at the last synthesized pulse, marked "fixed" |
| Monitor.FixCounterRule | utils/monitor.py:163-169 | the counter goes up by one when smoothing fires, including on a division by zero; it resets to 0 when history exists and smoothing does not fire; otherwise it is unchanged |
| Monitor.FixCounterBounded | utils/monitor.py:168 | the counter never exceeds the smoothing limit |
| Monitor.CurrentPulseFiles | utils/monitor.py:225-259 | a missing day file gets the previous pulse first when history exists; the reading is appended as "original"; a file with at most two lines also gets the reading in the previous day's file |
| Monitor.FixedPulseFiles | utils/monitor.py:185-216 | a synthesized pulse seeds a missing day file with the previous pulse, is appended as "fixed", and is copied to the previous day while the file has at most two lines |
| Monitor.YesterdayCheckDifference | energy_monitor.py:298-305 | with no file for yesterday, the newer loop creates it for the copied pulse and the older loop does not |
| Monitor.LegacyLimit | energy_monitor.py:243-244 | the older loop's constants (1.7, `fix_counter <= 2`) fire exactly as a limit of 3 does in the newer loop |
| Aggregate.AddRows | energy_monitor.py:523-529 | the counting loop adds, per slot, the number of rows stamped with the target date and that slot |
| Aggregate.CountsOfTotal | energy_monitor.py:519-534 | the slot counts add up to the number of rows whose stamp has the target date |
| Aggregate.CalculateTotalCost | energy_monitor.py:496-546 | (0, 0) for a missing log or one with fewer than two rows; otherwise power is matched rows × MULTIPLIER / 1000 and cost is the per-row price sum, where in Go mode an unpriced slot costs nothing |
| Aggregate.ResumeRows | energy_monitor.py:626-641 | with no previous map all rows are scanned; a previous total of 0 scans none; a total k > 0 scans only the rows from index k on |
| Aggregate.Faster | energy_monitor.py:622-663 | no data when readings or prices are missing; otherwise each slot count is the previous count plus the resumed rows' count, and power is the total × MULTIPLIER / 1000 |
| Aggregate.FreshFasterCounts | tests/test_energy_monitor.py:25-49 | with no previous map the counts are exactly the per-slot counts of target-date rows |
| Aggregate.ResumeOnlyAddsLaterRows | energy_monitor.py:631-648 | resuming never lowers a slot count; a previous total of 0 adds nothing; otherwise only the rows from index min(k, length) on are added |
| Aggregate.ResumeEqualsFullScan | energy_monitor.py:626-663 | when every row carries the target date, resuming from the map of a non-empty prefix gives the same counts, cost and power as a fresh scan of the whole log |
| Aggregate.ResumeNeedsSameDateRows | energy_monitor.py:636-641 | a three-row log whose first row has another date: resuming from its two-row prefix counts 3 pulses in slot 0, where the fresh scan counts 2 |
| Aggregate.FasterAgreesWithFullScan | energy_monitor.py:531-546 | on a log of at least two rows, a fresh incremental scan gives the full scan's power, and its cost too outside Go mode or when every slot is priced |
| Windows.AfterNested | energy_monitor.py:580-586 | filtering by a later cut-off after an earlier one is the same as filtering once by the later one |
| Windows.TrailingWindows | energy_monitor.py:549-619 | zeros for a missing or short log; the five-minute power is at most the thirty-minute power, which is at most the sixty-minute power |
| Windows.WindowsAreDirectFilters | energy_monitor.py:573-619 | each window's figures equal the full-scan figures of the rows strictly after its own cut-off |
| Windows.ScanBackward | energy_monitor.py:968-989 | the backward tallies satisfy five ≤ half ≤ hour |
| Windows.ScanCountsWindows | energy_monitor.py:971-989 | on a newest-first log, the tallies are exactly the numbers of lines strictly after each cut-off |
| Windows.ScanPowers | energy_monitor.py:968-989 | the loop that adds 0.001 × MULTIPLIER per counted line ends with each window's sum equal to the power of the recursive tally |
| Windows.ScanPowerIsProduct | energy_monitor.py:979-986 | adding 0.001 × MULTIPLIER once per counted line is the count times 0.001 × MULTIPLIER |
| Windows.ShortLineStopsScan | energy_monitor.py:974-977 | wherever a line with one field occurs, the tallies do not depend on any line older than it |
| Windows.OldLineStopsScan | energy_monitor.py:988-989 | after the first stamped line strictly before the hour threshold, no older line affects the tallies |
| Windows.ShortLineHidesPulse | energy_monitor.py:974-977 | a short line hides a pulse from the last five minutes that a direct count would include |
| Dashboard.LiveReading | energy_monitor.py:462-485 | when the two newest lines are pulses at different times, watts × (t0 - t1) = 3600 × MULTIPLIER; otherwise 0 (too few pulses, a short line, or a zero gap whose failing division is swallowed) |
| Dashboard.LiveReadingPositive | energy_monitor.py:479-480 | two pulses in time order give a positive reading |
| Dashboard.DayWithSuffix | energy_monitor.py:370-376 | days 11-13 get "th"; otherwise a last digit 1/2/3 gets "st"/"nd"/"rd"; everything else gets "th" |
| Tariffs.TariffOf | utils/prices.py:123-130 | AGILE, GO and TRACKER map to their own tariff; any other name maps to Flexible |
| Tariffs.EnergyPriceUrl | utils/prices.py:113-130 | each tariff gets the URL configured for it |
| Tariffs.AgileLastWins | utils/prices.py:215-219 | there is an entry for every interval start's time of day and nothing else; it holds the last interval with that start |
| Tariffs.GoTable | utils/prices.py:220-237 | a slot has an entry exactly when some interval covers its start, and it takes the first covering interval's price |
| Tariffs.FirstDirectDebit | utils/prices.py:242-246 | the first direct-debit price, or 0 when there is none |
| Tariffs.ApiPricesToDict | utils/prices.py:192-254 | Agile gives the last-wins table, Go the first-covering table; Tracker prices all 48 slots at the first interval's price and has no table for an empty reply; other names price all 48 slots at the first direct-debit price |
| Tariffs.WritePricesCsvSorted | utils/prices.py:179-189 | after the header, the rows carry the date and their time labels are strictly increasing in string order |
| Tariffs.WritePricesCsvComplete | utils/prices.py:182-188 | every key of the table has a row with its label and price |
| Tariffs.WritePricesCsvSound | utils/prices.py:182-188 | a row labelled with a time belongs to a key of the table and carries that key's price |
| Tariffs.ParseLabelInverse | utils/prices.py:75-80 | reading a label back gives its time of day |
| Tariffs.ParseLabelOnlyLabels | utils/prices.py:75-80 | a string that reads as a time of day is exactly that time's label |
| Tariffs.PriceCsvRoundTrip | utils/prices.py:64-81 | reading back the written price file gives the table that was written |
| Tariffs.GetEnergyPrices | utils/prices.py:294-343 | offline mode uses the offline table; a cached file with 48 entries is used as is; a failed or empty reply falls back to offline; a non-empty reply without a full cache is used; a table from the supplier is what `api_prices_to_dict` built, and it is written to the cache |
| Tariffs.FetchedTableIsCached | utils/prices.py:306-310 | after a full table is fetched and cached, the next call reads it back from the cache unchanged |
| Generate.Watts | utils/generate.py:187 | the row count is within 0.5 of kW × 1000, and even on a tie (Python rounding) |
| Generate.SlotRows | utils/generate.py:199-212 | row k of a slot is the generated row i + k; a run stops only at a row that reached the cutoff; without a stop it writes all w - i rows |
| Generate.SlotRowsShape | utils/generate.py:188-201 | a slot's rows lie in [slot start, slot start + 1800 s) and strictly increase in time |
| Generate.WriteUsage | utils/generate.py:185-212 | every row is a "generated" row with lux 0, filed under the slot its time falls in; rows strictly increase in time; writing stops right after the first row at or past the cutoff; a zero-watt slot ends the run |
| Generate.WithoutCutoff | utils/generate.py:187-189 | with no cutoff the run completes exactly when no slot rounds to 0 W, and otherwise it stops at the first such slot |
| Generate.GeneratedLogCounts | utils/generate.py:185-209 | with no cutoff and no zero-watt slot, the full scan counts max(0, round(kW × 1000)) rows in each slot |
| Generate.UsageToDict | utils/generate.py:264-290 | exactly 48 intervals are required; the table exists exactly when every slot start is covered; each slot takes the first covering interval's consumption |
| Generate.ConciseCsvSorted | utils/generate.py:160-170 | after the header, the 48 rows' time labels are strictly increasing in string order |
| Generate.ConciseCsvReadsBack | utils/generate.py:160-170 | reading the concise file back as a keyed table gives the day's usage slot by slot |
| Generate.DayStats | utils/generate.py:496-530 | a table without 48 entries or with a time off the slot grid is refused; otherwise power is the day's whole consumption, whatever the tariff |
| Generate.FullTableCoversSlots | utils/generate.py:496-499 | a table with 48 entries, all at slot starts, prices every slot |
| Generate.CheaperTariffCostsLess | utils/generate.py:521-529 | with the same slots priced and no price higher, a tariff costs no more and reports the same power |
| Generate.TariffStats | utils/generate.py:440-536 | one tariff's own summary: no days at all is a failure; otherwise it has totals exactly when every one of its day tables is accepted and its summed consumption is not 0 kWh (the cost per kWh divides by it), and the power is that sum |
| Generate.CountCheck | utils/generate.py:452-499 | fetching every tariff's tables in turn succeeds exactly when every table has 48 entries, and otherwise stops at a wrong count |
| Generate.SumTariffs | utils/generate.py:517-546 | summing the tariffs in turn gives every tariff's totals exactly when each summary succeeds, and otherwise the first failure, re-raised |
| Generate.GenerateStats | utils/generate.py:440-548 | the whole comparison has totals exactly when there are days and every tariff's own summary succeeds, and they are those summaries; with days, a wrong table count anywhere is the failure |
| Generate.OneRefusedTableStopsAll | utils/generate.py:496-499 | one table without 48 entries, in any tariff, leaves every tariff without totals |
| Generate.RunTotalsArePerTariff | utils/generate.py:517-536 | when the comparison has totals, each tariff's are its own summary, with the power summed over its days |
| Generate.NoConsumptionFails | utils/generate.py:517-536 | accepted days that used no electricity make the summary fail on the division by zero kWh |
| Generate.TariffsAgreeOnPower | utils/generate.py:517-536 | two tariffs compared over the same days report the same power |

## Left out

- Sensor, threads and sleeps: the LTR559 driver, `init_sensor`, random debug
  readings, `run`/`stop` and `daily_cost_thread`. A reading is a parameter
  (lux, time and today's date) of `Monitor.Step`.
- HTTP calls: `get_agile_prices`, `get_energy_prices_from_api` and
  `get_energy_usage_from_api`. Their replies are inputs. A failed request is `None`.
- The file system and pandas parsing. A log is a `seq<Record>` and the log directory
  is a map from day to records. The price file is a sequence of rows. Which files
  exist, the mtime ordering of the log directory, and `get_offline_prices`' choice of
  file are inputs.
- Local time is UTC: epoch seconds are split into days and times of day directly, with
  no zone offset and no daylight-saving changes. The source compares ISO timestamp
  strings, which order by local wall-clock time; that agrees with the order of instants
  except in the hour repeated when clocks go back, where a later instant can carry the
  smaller string. The model compares minutes, that is, instants.
- LogFiles.ReadText: decoding the file's bytes is not modelled (a decoding error would
  raise in the source). A file is a string of characters, and only the line-end
  translation of text mode is modelled.
- Floating point. Amounts are exact reals. The float16/float32 price columns, the
  `{:06.2f}`/`{:.6f}` formatting, and bit-exact agreement with Python floats are not
  modelled.
- Monitor.Step: a parse or I/O failure inside the loop is not modelled. The only
  exception modelled is the division by zero in the smoothing.
- Aggregate.CalculateTotalCost: downloading Agile prices when the price file is
  missing or short is not modelled; the table is an input. The same holds for
  `Windows.TrailingWindows`. Rows whose slot label is not on the half-hour grid
  (a crash in the source) cannot be expressed, because a stamp always holds a slot
  index.
- Windows.ScanBackward: a timestamp field that does not parse as a float (an
  exception in the source) is not modelled. Lines are either short or carry an epoch.
- The pygame UI and the rest of the `__main__` loop, `arg_parse`/`main` in the
  generator, YAML configuration loading, and logging setup.
- The test file calls `calculate_total_cost_and_power_faster` with another signature.
  Only its per-slot count assertion is modelled (`Aggregate.FreshFasterCounts`).
- Generate.TariffStats: the retry loop that moves the whole date range back a day
  after an `AssertionError` is not modelled. A refused day is an error result.
- Tariffs.ReadPriceCsv: only rows whose Time is an "HH:MM" label are read into the
  table, and any other row is dropped. In the source, `convert_price_csv_to_dict` keeps
  every Time string as a key, so a stray row such as "7:30" makes the table larger
  than 48. The program only writes label rows (`Tariffs.PriceCsvRoundTrip`), so only
  hand-edited files differ.
- Generate.WriteUsage: the CSV text of the generated rows is not modelled separately;
  they are `Record`s, the same format `Records.RecordLine` renders for the monitor.

=== FILE: aggregate.dfy ===
/** Energy and cost for a day from its pulse log (energy_monitor.py): the full scan
    `calculate_total_cost` and the incremental `calculate_total_cost_and_power_faster`. */
module Aggregate {
  import opened Wrappers
  import opened Numbers
  import opened Clock
  import opened Records

  /** The meter blinks 1005 times per kWh; one blink is this many watt-hours. */
  const BlinksPerKilowatt: int := 1005
  const Multiplier: real := 1000.0 / 1005.0

  type SlotPrices = s: seq<real> | |s| == 48 witness seq(48, _ => 0.0)

  /** The built-in fallback price of each slot, pence per kWh. */
  const Prices: SlotPrices :=
    [9.324, 9.576, 10.017, 9.45, 8.946, 8.568, 8.736, 8.4, 7.56, 6.3, 8.673, 8.82] +
    [10.08, 9.45, 8.484, 11.13, 10.29, 10.248, 10.5, 9.492, 10.101, 9.45, 9.576, 9.576] +
    [9.639, 9.576, 10.08, 9.597, 9.765, 9.765, 9.933, 10.92, 23.52, 31.5, 29.652, 29.736] +
    [25.2, 21.42, 10.5, 8.736, 9.387, 9.177, 11.34, 7.896, 7.56, 7.56, 9.03, 9.03]

  /** Pulses per half-hour slot of one day. */
  type Counts = c: seq<nat> | |c| == 48 witness seq(48, _ => 0)

  function NoCounts(): Counts { seq(48, i => 0) }

  /** A price file: slot start (minutes after midnight) to pence per kWh. */
  type PriceTable = map<Minute, real>

  // ---------------------------------------------------------------- counting

  /** Rows whose slot stamp is the given date and slot. */
  function CountIn(rows: seq<Record>, day: int, slot: SlotIndex): nat
    decreases |rows|
  {
    if |rows| == 0 then 0
    else (if rows[0].stamp == SlotStamp(day, slot) then 1 else 0) + CountIn(rows[1..], day, slot)
  }

  /** Rows whose slot stamp carries the given date. */
  function MatchCount(rows: seq<Record>, day: int): nat
    decreases |rows|
  {
    if |rows| == 0 then 0
    else (if rows[0].stamp.day == day then 1 else 0) + MatchCount(rows[1..], day)
  }

  /** The per-slot count of a day's rows, slot by slot. */
  function CountsOf(rows: seq<Record>, day: int): Counts {
    seq(48, i requires 0 <= i < 48 => CountIn(rows, day, i))
  }

  function Total(c: seq<nat>): nat
    decreases |c|
  {
    if |c| == 0 then 0 else c[0] + Total(c[1..])
  }

  /** One pass of the counting loop: a row of the target date adds one to its slot. */
  function Bump(c: Counts, r: Record, day: int): (d: Counts)
    ensures forall i :: 0 <= i < 48 ==> d[i] == c[i] + (if r.stamp == SlotStamp(day, i) then 1 else 0)
  {
    if r.stamp.day == day then c[r.stamp.slot := c[r.stamp.slot] + 1] else c
  }

  /** The counting loop over a run of rows, starting from the counts c. */
  function AddRows(c: Counts, rows: seq<Record>, day: int): (d: Counts)
    ensures forall i :: 0 <= i < 48 ==> d[i] == c[i] + CountIn(rows, day, i)
    decreases |rows|
  {
    if |rows| == 0 then c else AddRows(Bump(c, rows[0], day), rows[1..], day)
  }

  lemma {:induction false} TotalBump(c: seq<nat>, j: int)
    requires 0 <= j < |c|
    ensures Total(c[j := c[j] + 1]) == Total(c) + 1
    decreases |c|
  {
    if j > 0 {
      assert c[j := c[j] + 1][1..] == c[1..][j - 1 := c[j] + 1];
      TotalBump(c[1..], j - 1);
    }
  }

  /** Every row of the target date lands in exactly one slot, so the slot counts add up to the
      number of the day's rows. */
  lemma {:induction false} TotalAddRows(c: Counts, rows: seq<Record>, day: int)
    ensures Total(AddRows(c, rows, day)) == Total(c) + MatchCount(rows, day)
    decreases |rows|
  {
    if |rows| > 0 {
      var r := rows[0];
      if r.stamp.day == day {
        assert Bump(c, r, day) == c[r.stamp.slot := c[r.stamp.slot] + 1];
        TotalBump(c, r.stamp.slot);
      } else {
        assert Bump(c, r, day) == c;
      }
      TotalAddRows(Bump(c, r, day), rows[1..], day);
    }
  }

  lemma {:induction false} CountInAppend(a: seq<Record>, b: seq<Record>, day: int, slot: SlotIndex)
    ensures CountIn(a + b, day, slot) == CountIn(a, day, slot) + CountIn(b, day, slot)
    decreases |a|
  {
    if |a| == 0 {
      assert a + b == b;
    } else {
      assert (a + b)[1..] == a[1..] + b;
      CountInAppend(a[1..], b, day, slot);
    }
  }

  lemma {:induction false} TotalZero()
    ensures Total(NoCounts()) == 0
  {
    var z: seq<nat> := NoCounts();
    ZeroTotal(z);
  }

  lemma {:induction false} ZeroTotal(z: seq<nat>)
    requires forall i :: 0 <= i < |z| ==> z[i] == 0
    ensures Total(z) == 0
    decreases |z|
  {
    if |z| > 0 { ZeroTotal(z[1..]); }
  }

  lemma {:induction false} CountsOfTotal(rows: seq<Record>, day: int)
    ensures AddRows(NoCounts(), rows, day) == CountsOf(rows, day)
    ensures Total(CountsOf(rows, day)) == MatchCount(rows, day)
  {
    TotalZero();
    TotalAddRows(NoCounts(), rows, day);
    FreshAddRows(rows, day);
  }

  lemma {:induction false} FreshAddRows(rows: seq<Record>, day: int)
    ensures AddRows(NoCounts(), rows, day) == CountsOf(rows, day)
  {
    var a, b := AddRows(NoCounts(), rows, day), CountsOf(rows, day);
    forall i | 0 <= i < 48 ensures a[i] == b[i] {
      assert NoCounts()[i] == 0;
    }
    assert |a| == |b|;
  }

  // ---------------------------------------------------------------- power and cost

  /** The power loop: each slot's pulses times the watt-hours per pulse, in kWh. */
  function PowerOf(c: seq<nat>): real
    decreases |c|
  {
    if |c| == 0 then 0.0 else c[0] as real * Multiplier / 1000.0 + PowerOf(c[1..])
  }

  lemma {:induction false} PowerIsTotal(c: seq<nat>)
    ensures PowerOf(c) == Total(c) as real * Multiplier / 1000.0
    decreases |c|
  {
    if |c| > 0 {
      PowerIsTotal(c[1..]);
      assert (c[0] + Total(c[1..])) as real * Multiplier == c[0] as real * Multiplier + Total(c[1..]) as real * Multiplier;
    }
  }

  /** What a slot without a price in the table costs: in Go mode the lookup into the Go price
      map uses the slot's index while the map is keyed by "HH:MM" text, so the KeyError is
      swallowed and the slot adds nothing; otherwise a built-in table (Prices) applies. */
  datatype Fallback = ZeroCost | StaticPrices(table: SlotPrices)

  function UnitPrice(slot: SlotIndex, prices: PriceTable, fallback: Fallback): real {
    if SlotStart(slot) in prices then prices[SlotStart(slot)]
    else match fallback
      case ZeroCost => 0.0
      case StaticPrices(table) => table[slot]
  }

  /** What one pulse in the slot costs, in pounds (pence per kWh times kWh, over 100). */
  function PulseCost(slot: SlotIndex, prices: PriceTable, fallback: Fallback): real {
    UnitPrice(slot, prices, fallback) * Multiplier / 100000.0
  }

  /** What the slot's pulses cost: the pulse count times the price of one pulse. */
  function SlotCost(n: nat, slot: SlotIndex, prices: PriceTable, fallback: Fallback): real {
    n as real * PulseCost(slot, prices, fallback)
  }

  lemma {:induction false} SlotCostStep(n: nat, slot: SlotIndex, prices: PriceTable, fallback: Fallback)
    ensures SlotCost(n + 1, slot, prices, fallback) == SlotCost(n, slot, prices, fallback) + PulseCost(slot, prices, fallback)
  {
    var p := PulseCost(slot, prices, fallback);
    assert (n + 1) as real * p == n as real * p + p;
  }

  /** The cost loop over slots from..47. */
  function CostFrom(c: Counts, from: nat, prices: PriceTable, fallback: Fallback): real
    requires from <= 48
    decreases 48 - from
  {
    if from == 48 then 0.0
    else
      SlotCost(c[from], from, prices, fallback) + CostFrom(c, from + 1, prices, fallback)
  }

  function CostOf(c: Counts, prices: PriceTable, fallback: Fallback): real {
    CostFrom(c, 0, prices, fallback)
  }

  /** The cost as a sum over the day's rows, each priced at its own slot. */
  function RowsCost(rows: seq<Record>, day: int, prices: PriceTable, fallback: Fallback): real
    decreases |rows|
  {
    if |rows| == 0 then 0.0
    else
      RowCost(rows[0], day, prices, fallback) + RowsCost(rows[1..], day, prices, fallback)
  }

  lemma {:induction false} CostFromBump(c: Counts, j: SlotIndex, from: nat, prices: PriceTable, fallback: Fallback)
    requires from <= 48
    ensures CostFrom(c[j := c[j] + 1], from, prices, fallback)
      == CostFrom(c, from, prices, fallback) + (if from <= j then PulseCost(j, prices, fallback) else 0.0)
    decreases 48 - from
  {
    if from < 48 {
      var d := c[j := c[j] + 1];
      CostFromBump(c, j, from + 1, prices, fallback);
      assert CostFrom(d, from, prices, fallback) == SlotCost(d[from], from, prices, fallback) + CostFrom(d, from + 1, prices, fallback);
      if from == j {
        SlotCostStep(c[j], j, prices, fallback);
      } else {
        assert d[from] == c[from];
      }
    }
  }

  /** What one row adds to the cost: its pulse price when it is of the target date. */
  function RowCost(r: Record, day: int, prices: PriceTable, fallback: Fallback): real {
    if r.stamp.day == day then PulseCost(r.stamp.slot, prices, fallback) else 0.0
  }

  lemma {:induction false} CostBump(c: Counts, r: Record, day: int, prices: PriceTable, fallback: Fallback)
    ensures CostOf(Bump(c, r, day), prices, fallback) == CostOf(c, prices, fallback) + RowCost(r, day, prices, fallback)
  {
    var d := Bump(c, r, day);
    if r.stamp.day == day {
      var j := r.stamp.slot;
      assert d == c[j := c[j] + 1];
      CostFromBump(c, j, 0, prices, fallback);
      assert CostFrom(d, 0, prices, fallback) == CostFrom(c, 0, prices, fallback) + PulseCost(j, prices, fallback);
    } else {
      assert d == c;
    }
  }

  /** Counting one more row of the target date adds exactly that row's pulse price. */
  lemma {:induction false} CostAddRows(c: Counts, rows: seq<Record>, day: int, prices: PriceTable, fallback: Fallback)
    ensures CostOf(AddRows(c, rows, day), prices, fallback) == CostOf(c, prices, fallback) + RowsCost(rows, day, prices, fallback)
    decreases |rows|
  {
    if |rows| > 0 {
      CostBump(c, rows[0], day, prices, fallback);
      CostAddRows(Bump(c, rows[0], day), rows[1..], day, prices, fallback);
    }
  }

  lemma {:induction false} CostFromZero(from: nat, prices: PriceTable, fallback: Fallback)
    requires from <= 48
    ensures CostFrom(NoCounts(), from, prices, fallback) == 0.0
    decreases 48 - from
  {
    if from < 48 {
      CostFromZero(from + 1, prices, fallback);
      assert NoCounts()[from] == 0;
      assert SlotCost(0, from, prices, fallback) == 0.0;
    }
  }

  // ---------------------------------------------------------------- the full scan

  function GoFallback(onGo: bool): Fallback {
    if onGo then ZeroCost else StaticPrices(Prices)
  }

  /** calculate_total_cost for one day's log (None when the file does not exist):
      (cost in pounds, power in kWh). */
  function CalculateTotalCost(dayLog: Option<seq<Record>>, target: int, prices: PriceTable, onGo: bool): (r: (real, real))
    ensures dayLog.None? || |dayLog.value| < 2 ==> r == (0.0, 0.0)
    ensures dayLog.Some? && |dayLog.value| >= 2 ==>
      && r.1 == MatchCount(dayLog.value, target) as real * Multiplier / 1000.0
      && r.0 == RowsCost(dayLog.value, target, prices, GoFallback(onGo))
  {
    if dayLog.None? || |dayLog.value| < 2 then (0.0, 0.0)
    else
      var counts := AddRows(NoCounts(), dayLog.value, target);
      var fallback := GoFallback(onGo);
      CountsOfTotal(dayLog.value, target);
      PowerIsTotal(counts);
      CostFromZero(0, prices, fallback);
      CostAddRows(NoCounts(), dayLog.value, target, prices, fallback);
      (CostOf(counts, prices, fallback), PowerOf(counts))
  }

  // ---------------------------------------------------------------- the incremental scan

  datatype Totals = NoData | Computed(cost: real, power: real, counts: Counts)

  /** The rows the incremental scan still has to look at: all of them without a previous map;
      none when the previous map is all zero; otherwise `tail(max(0, len - k))` for the k
      pulses already counted. */
  function ResumeRows(rows: seq<Record>, previous: Option<Counts>): (remaining: seq<Record>)
    ensures |remaining| <= |rows| && remaining == rows[|rows| - |remaining|..]
    ensures previous.None? ==> remaining == rows
    ensures previous.Some? && Total(previous.value) == 0 ==> remaining == []
    ensures previous.Some? && Total(previous.value) > 0 ==> remaining == rows[Min(Total(previous.value), |rows|)..]
  {
    match previous
    case None => rows
    case Some(p) =>
      var k := Total(p);
      if k == 0 then rows[|rows|..]
      else rows[|rows| - Max(0, |rows| - k)..]
  }

  /** calculate_total_cost_and_power_faster. A missing price for a slot always falls back to the
      built-in Prices here (this function has no Go branch). */
  function Faster(target: int, readings: Option<seq<Record>>, prices: Option<PriceTable>, previous: Option<Counts>): (t: Totals)
    ensures t.NoData? <==> readings.None? || prices.None?
    ensures t.Computed? ==> t.power == Total(t.counts) as real * Multiplier / 1000.0
    ensures t.Computed? ==> forall i :: 0 <= i < 48 ==>
      t.counts[i] == (if previous.Some? then previous.value[i] else 0) + CountIn(ResumeRows(readings.value, previous), target, i)
  {
    if readings.None? || prices.None? then NoData
    else
      var base := if previous.Some? then previous.value else NoCounts();
      var counts := AddRows(base, ResumeRows(readings.value, previous), target);
      PowerIsTotal(counts);
      Computed(CostOf(counts, prices.value, StaticPrices(Prices)), PowerOf(counts), counts)
  }

  /** With no previous map, the per-slot counts are the count of the target date's rows in each
      slot, as the unit test asserts. */
  lemma {:induction false} FreshFasterCounts(target: int, rows: seq<Record>, prices: PriceTable)
    ensures Faster(target, Some(rows), Some(prices), None).counts == CountsOf(rows, target)
  {
  }

  /** Resuming from a previous map: counts never go down, an all-zero previous map scans
      nothing, and otherwise only rows from index k on (k the pulses already counted) are added. */
  lemma {:induction false} ResumeOnlyAddsLaterRows(target: int, rows: seq<Record>, prices: PriceTable, previous: Counts)
    ensures var t := Faster(target, Some(rows), Some(prices), Some(previous));
      && (forall i :: 0 <= i < 48 ==> t.counts[i] >= previous[i])
      && (Total(previous) == 0 ==> t.counts == previous)
      && (Total(previous) > 0 ==> forall i :: 0 <= i < 48 ==>
            t.counts[i] == previous[i] + CountIn(rows[Min(Total(previous), |rows|)..], target, i))
  {
    var t := Faster(target, Some(rows), Some(prices), Some(previous));
    if Total(previous) == 0 {
      assert forall i :: 0 <= i < 48 ==> t.counts[i] == previous[i];
    }
  }

  predicate AllOnDay(rows: seq<Record>, day: int) {
    forall j :: 0 <= j < |rows| ==> rows[j].stamp.day == day
  }

  lemma {:induction false} MatchCountAll(rows: seq<Record>, day: int)
    requires AllOnDay(rows, day)
    ensures MatchCount(rows, day) == |rows|
    decreases |rows|
  {
    if |rows| > 0 {
      assert AllOnDay(rows[1..], day) by {
        forall j | 0 <= j < |rows| - 1 ensures rows[1..][j].stamp.day == day { assert rows[1..][j] == rows[j + 1]; }
      }
      MatchCountAll(rows[1..], day);
    }
  }

  /** The incremental scan agrees with a full one: resuming on a log from the map computed on
      a non-empty prefix of it gives the same counts, cost and power, provided every row carries
      the target date. */
  lemma {:induction false} ResumeEqualsFullScan(target: int, rows: seq<Record>, prices: PriceTable, m: nat)
    requires AllOnDay(rows, target)
    requires 1 <= m <= |rows|
    ensures var prefix := Faster(target, Some(rows[..m]), Some(prices), None);
      Faster(target, Some(rows), Some(prices), Some(prefix.counts)) == Faster(target, Some(rows), Some(prices), None)
  {
    var prefix := Faster(target, Some(rows[..m]), Some(prices), None);
    PrefixCounts(target, rows, m);
    FreshFasterCounts(target, rows[..m], prices);
    ResumedCountsAgree(target, rows[..m], rows[m..], prices, prefix.counts);
    FasterFromCounts(target, rows, prices, Some(prefix.counts));
    FasterFromCounts(target, rows, prices, None);
  }

  /** The counting half of the resume: the map of a non-empty run a, resumed over a + b. */
  lemma {:induction false} ResumedCountsAgree(target: int, a: seq<Record>, b: seq<Record>, prices: PriceTable, p: Counts)
    requires 1 <= |a|
    requires p == CountsOf(a, target) && Total(p) == |a|
    ensures Faster(target, Some(a + b), Some(prices), Some(p)).counts == Faster(target, Some(a + b), Some(prices), None).counts
  {
    var resumed := Faster(target, Some(a + b), Some(prices), Some(p));
    var full := Faster(target, Some(a + b), Some(prices), None);
    assert (a + b)[|a|..] == b;
    assert ResumeRows(a + b, Some(p)) == b;
    forall i | 0 <= i < 48 ensures resumed.counts[i] == full.counts[i] {
      ResumedSlotAgrees(target, a, b, prices, p, i);
    }
  }

  lemma {:induction false} ResumedSlotAgrees(target: int, a: seq<Record>, b: seq<Record>, prices: PriceTable, p: Counts, i: SlotIndex)
    requires p == CountsOf(a, target)
    requires ResumeRows(a + b, Some(p)) == b
    ensures Faster(target, Some(a + b), Some(prices), Some(p)).counts[i] == Faster(target, Some(a + b), Some(prices), None).counts[i]
  {
    CountInAppend(a, b, target, i);
  }

  /** Cost and power are fixed by the counts: two scans with the same counts give the same totals. */
  lemma {:induction false} FasterFromCounts(target: int, rows: seq<Record>, prices: PriceTable, previous: Option<Counts>)
    ensures var t := Faster(target, Some(rows), Some(prices), previous);
      t == Computed(CostOf(t.counts, prices, StaticPrices(Prices)), PowerOf(t.counts), t.counts)
  {
  }

  /** A prefix of m same-date rows counts m pulses. */
  lemma {:induction false} PrefixCounts(target: int, rows: seq<Record>, m: nat)
    requires AllOnDay(rows, target)
    requires m <= |rows|
    ensures Total(CountsOf(rows[..m], target)) == m
    ensures rows[..m] + rows[m..] == rows
  {
    assert AllOnDay(rows[..m], target) by {
      forall j | 0 <= j < m ensures rows[..m][j].stamp.day == target { assert rows[..m][j] == rows[j]; }
    }
    CountsOfTotal(rows[..m], target);
    MatchCountAll(rows[..m], target);
  }

  /** Without the same-date condition the resume is wrong: a prefix whose first row belongs to
      another date contributes one count for two rows, so the resume counts its second row again. */
  lemma {:induction false} ResumeNeedsSameDateRows(target: int, prices: PriceTable)
    ensures var other := Record(0.0, 1.0, SlotStamp(target - 1, 0), Original);
      var mine := Record(0.0, 2.0, SlotStamp(target, 0), Original);
      var rows := [other, mine, mine];
      var prefix := Faster(target, Some(rows[..2]), Some(prices), None);
      && Faster(target, Some(rows), Some(prices), Some(prefix.counts)).counts[0] == 3
      && Faster(target, Some(rows), Some(prices), None).counts[0] == 2
  {
    var other := Record(0.0, 1.0, SlotStamp(target - 1, 0), Original);
    var mine := Record(0.0, 2.0, SlotStamp(target, 0), Original);
    var rows := [other, mine, mine];
    assert rows[..2] == [other, mine];
    var prefix := Faster(target, Some([other, mine]), Some(prices), None);
    PrefixCountsOne(other, mine, target, prices);
    ResumeAfterOne(rows, prefix.counts, target, prices);
    assert rows[1..] == [mine, mine];
    assert CountIn([mine, mine], target, 0) == 2;
    assert CountIn(rows, target, 0) == 2;
  }

  /** The fresh scan of [other date, slot 0 of the target date] counts one pulse in slot 0. */
  lemma {:induction false} PrefixCountsOne(other: Record, mine: Record, target: int, prices: PriceTable)
    requires other.stamp.day != target && mine.stamp == SlotStamp(target, 0)
    ensures var p := Faster(target, Some([other, mine]), Some(prices), None).counts;
      p[0] == 1 && Total(p) == 1
  {
    var p := Faster(target, Some([other, mine]), Some(prices), None).counts;
    FreshFasterCounts(target, [other, mine], prices);
    assert [other, mine][1..] == [mine];
    assert [mine][1..] == [];
    forall i | 0 <= i < 48 ensures p[i] == NoCounts()[0 := 1][i] {
      assert p[i] == CountIn([other, mine], target, i) == CountIn([mine], target, i);
      if i == 0 {
        assert CountIn([mine], target, i) == 1;
      } else {
        assert CountIn([mine], target, i) == 0;
      }
    }
    assert p == NoCounts()[0 := 1];
    TotalBump(NoCounts(), 0);
    TotalZero();
  }

  /** Resuming a three-row log from a map holding one pulse skips exactly its first row. */
  lemma {:induction false} ResumeAfterOne(rows: seq<Record>, previous: Counts, target: int, prices: PriceTable)
    requires |rows| == 3 && previous[0] == 1 && Total(previous) == 1
    ensures Faster(target, Some(rows), Some(prices), Some(previous)).counts[0] == 1 + CountIn(rows[1..], target, 0)
  {
    assert ResumeRows(rows, Some(previous)) == rows[1..];
  }

  /** The two scans of a day agree on power, and on cost whenever they price every slot the
      same way: outside Go mode, or when the price table covers all 48 slots. */
  lemma {:induction false} FasterAgreesWithFullScan(target: int, rows: seq<Record>, prices: PriceTable, onGo: bool)
    requires |rows| >= 2
    requires !onGo || forall i :: 0 <= i < 48 ==> SlotStart(i) in prices
    ensures var full := CalculateTotalCost(Some(rows), target, prices, onGo);
      var fast := Faster(target, Some(rows), Some(prices), None);
      fast.power == full.1 && fast.cost == full.0
  {
    CountsOfTotal(rows, target);
    CostFromZero(0, prices, StaticPrices(Prices));
    CostAddRows(NoCounts(), rows, target, prices, StaticPrices(Prices));
    if onGo {
      SameFallback(rows, target, prices, Prices);
    }
  }

  lemma {:induction false} SameFallback(rows: seq<Record>, day: int, prices: PriceTable, table: SlotPrices)
    requires forall i :: 0 <= i < 48 ==> SlotStart(i) in prices
    ensures RowsCost(rows, day, prices, ZeroCost) == RowsCost(rows, day, prices, StaticPrices(table))
    decreases |rows|
  {
    if |rows| > 0 { SameFallback(rows[1..], day, prices, table); }
  }
}

=== FILE: clock.dfy ===
/** Local time as the program sees it: epoch seconds split into a calendar day and a
    time of day, the half-hour tariff slots of a day and their "HH:MM" labels. Local time
    is taken to be UTC: epoch seconds are split into days and times of day directly, with
    no zone offset and no daylight-saving changes. */
module Clock {
  import opened Wrappers
  import opened Text

  const SecondsPerDay: int := 86400

  /** A time of day to the minute, "HH:MM", as minutes since local midnight. */
  type Minute = m: int | 0 <= m < 1440

  /** Index of one of the 48 half-hour tariff slots of a day. */
  type SlotIndex = i: int | 0 <= i < 48

  function SlotStart(i: SlotIndex): (m: Minute)
    ensures m % 30 == 0
  {
    30 * i
  }

  // ---------------------------------------------------------------- epoch to day and time (UTC)

  /** The calendar day an instant falls on, as days since the epoch. */
  function DayOf(t: real): int {
    t.Floor / SecondsPerDay
  }

  function SecondOfDay(t: real): (s: int)
    ensures 0 <= s < SecondsPerDay
  {
    t.Floor % SecondsPerDay
  }

  function MinuteOfDay(t: real): Minute {
    SecondOfDay(t) / 60
  }

  /** Epoch seconds of the midnight (UTC) starting `day`. */
  function DayStart(day: int): real {
    (day * SecondsPerDay) as real
  }

  lemma {:induction false} DayOfWithinDay(day: int, offset: real)
    requires 0.0 <= offset < SecondsPerDay as real
    ensures DayOf(DayStart(day) + offset) == day
  {
    var t := DayStart(day) + offset;
    assert t.Floor == day * SecondsPerDay + offset.Floor;
  }

  /** The start of the tariff slot a record is filed under: the day it was stamped with
      and the slot index. */
  datatype SlotStamp = SlotStamp(day: int, slot: SlotIndex)

  /** get_unit_datetime: HH:00 when the minute is below 30, otherwise HH:30, combined with
      `today` (the source calls date.today(), not the reading's own date). */
  function UnitDatetime(t: real, today: int): (u: SlotStamp)
    ensures u.day == today
    ensures SlotStart(u.slot) <= MinuteOfDay(t) < SlotStart(u.slot) + 30
  {
    var hour := MinuteOfDay(t) / 60;
    var minute := MinuteOfDay(t) % 60;
    SlotStamp(today, if minute < 30 then 2 * hour else 2 * hour + 1)
  }

  // ---------------------------------------------------------------- labels

  /** strftime("%H:%M") of a time of day. */
  function Label(m: Minute): (s: string)
    ensures |s| == 5 && s[2] == ':'
  {
    TwoDigits(m / 60) + ([':'] + TwoDigits(m % 60))
  }

  /** The TIMES grid: the 48 slot labels "00:00", "00:30", ..., "23:30". */
  const Times: seq<string> := seq(48, i requires 0 <= i < 48 => Label(30 * i))

  lemma {:induction false} TimesGrid()
    ensures |Times| == 48
    ensures forall i :: 0 <= i < 48 ==>
      Times[i] == TwoDigits(i / 2) + ":" + (if i % 2 == 0 then "00" else "30")
  {
    forall i | 0 <= i < 48
      ensures Times[i] == TwoDigits(i / 2) + ":" + (if i % 2 == 0 then "00" else "30")
    {
      assert (30 * i) / 60 == i / 2;
      assert (30 * i) % 60 == if i % 2 == 0 then 0 else 30;
      assert TwoDigits(0) == "00" && TwoDigits(30) == "30";
    }
  }

  /** Labels sort as their times do, so sorting labels as strings sorts by time of day. */
  lemma {:induction false} LabelOrdered(a: Minute, b: Minute)
    requires a < b
    ensures LexLess(Label(a), Label(b))
  {
    if a / 60 < b / 60 {
      TwoDigitsOrdered(a / 60, b / 60);
      LexLessExtend(TwoDigits(a / 60), TwoDigits(b / 60), [':'] + TwoDigits(a % 60), [':'] + TwoDigits(b % 60));
    } else {
      assert a / 60 == b / 60 && a % 60 < b % 60;
      TwoDigitsOrdered(a % 60, b % 60);
      LexLessCommonPrefix(TwoDigits(a / 60) + [':'], TwoDigits(a % 60), TwoDigits(b % 60));
      assert TwoDigits(a / 60) + [':'] + TwoDigits(a % 60) == Label(a);
      assert TwoDigits(b / 60) + [':'] + TwoDigits(b % 60) == Label(b);
    }
  }

  lemma {:induction false} TimesStrictlyIncreasing()
    ensures forall i, j :: 0 <= i < j < |Times| ==> LexLess(Times[i], Times[j])
    ensures forall i, j :: 0 <= i < j < |Times| ==> Times[i] != Times[j]
  {
    forall i, j | 0 <= i < j < |Times| ensures LexLess(Times[i], Times[j]) && Times[i] != Times[j] {
      LabelOrdered(30 * i, 30 * j);
      LexLessIrreflexive(Times[i]);
    }
  }

  /** Every stamp get_unit_datetime produces carries one of the 48 TIMES labels. */
  lemma {:induction false} UnitDatetimeIsTimesLabel(t: real, today: int)
    ensures Label(SlotStart(UnitDatetime(t, today).slot)) in Times
  {
    var i := UnitDatetime(t, today).slot;
    assert Times[i] == Label(SlotStart(i));
  }

  // ---------------------------------------------------------------- text of instants

  /** (year, month, day) of a day number in the proleptic Gregorian calendar, days
      counted from 1970-01-01 (the days-to-civil conversion of H. Hinnant). */
  function Civil(day: int): (int, int, int) {
    var z := day + 719468;
    var era := z / 146097;
    var doe := z - era * 146097;
    var yoe := (doe - doe / 1460 + doe / 36524 - doe / 146096) / 365;
    var doy := doe - (365 * yoe + yoe / 4 - yoe / 100);
    var mp := (5 * doy + 2) / 153;
    var d := doy - (153 * mp + 2) / 5 + 1;
    var m := if mp < 10 then mp + 3 else mp - 9;
    (yoe + era * 400 + (if m <= 2 then 1 else 0), m, d)
  }

  function YearText(y: int): string {
    if y >= 0 then PaddedText(y, 4) else "-" + NatText(-y)
  }

  /** strftime("%Y-%m-%d") of a day number; month and day are below 100, so `% 100` keeps them. */
  function DateText(day: int): string {
    var (y, m, d) := Civil(day);
    YearText(y) + "-" + PaddedText(m % 100, 2) + "-" + PaddedText(d % 100, 2)
  }

  /** strftime("%H:%M:%S.%f") of an instant. */
  function WallText(t: real): string {
    var s := SecondOfDay(t);
    var micro := ((t - t.Floor as real) * 1000000.0).Floor;
    TwoDigits(s / 3600) + ":" + TwoDigits(s / 60 % 60) + ":" + TwoDigits(s % 60) + "." + PaddedText(micro, 6)
  }

  /** str() of the slot start datetime: "YYYY-MM-DD HH:MM:00". */
  function StampText(u: SlotStamp): string {
    DateText(u.day) + " " + Label(SlotStart(u.slot)) + ":00"
  }

  // ---------------------------------------------------------------- intervals

  /** A half-open interval [start, end) of minutes relative to local midnight of the day
      being processed (API prices and usage readings). */
  datatype Span = Span(start: int, end: int)

  predicate Covers(sp: Span, t: int) {
    sp.start <= t < sp.end
  }

  /** Index of the first span covering t, as the source's `for ...: if start <= t < end: ... break`. */
  function FirstCovering(spans: seq<Span>, t: int, from: nat := 0): (r: Option<nat>)
    requires from <= |spans|
    ensures r.Some? ==> from <= r.value < |spans| && Covers(spans[r.value], t)
    ensures r.Some? ==> forall j :: from <= j < r.value ==> !Covers(spans[j], t)
    ensures r.None? ==> forall j :: from <= j < |spans| ==> !Covers(spans[j], t)
    decreases |spans| - from
  {
    if from == |spans| then None
    else if Covers(spans[from], t) then Some(from)
    else FirstCovering(spans, t, from + 1)
  }
}

=== FILE: dashboard.dfy ===
/** Small helpers of the display loop (energy_monitor.py): the live power reading from the
    last two pulses and the day-of-month ordinal. */
module Dashboard {
  import opened Text
  import opened Aggregate
  import opened Windows

  /** The two newest lines are stamped pulses at different times. */
  predicate LastTwoApart(newestFirst: seq<LogLine>) {
    |newestFirst| >= 2 && newestFirst[0].Stamped? && newestFirst[1].Stamped?
    && newestFirst[0].epoch != newestFirst[1].epoch
  }

  /** live_energy_time_reading over the day file read newest line first: the watts implied by
      the gap between the last two pulses; 0 when there are not two stamped lines at the end,
      or when the gap is zero (the division fails and the error is swallowed). */
  function LiveReading(newestFirst: seq<LogLine>): (watts: real)
    ensures LastTwoApart(newestFirst) ==>
      watts * (newestFirst[0].epoch - newestFirst[1].epoch) == 3600.0 * Multiplier
    ensures !LastTwoApart(newestFirst) ==> watts == 0.0
  {
    if |newestFirst| < 2 || newestFirst[0].Short? || newestFirst[1].Short? then 0.0
    else
      var gap := newestFirst[0].epoch - newestFirst[1].epoch;
      if gap == 0.0 then 0.0 else 3600.0 * Multiplier / gap
  }

  /** A pulse after the one before it gives a positive reading: one pulse's watt-hours
      spread over the gap, in watts. */
  lemma {:induction false} LiveReadingPositive(newer: real, older: real)
    requires older < newer
    ensures LiveReading([Stamped(newer), Stamped(older)]) > 0.0
  {
  }

  /** day_with_suffix for day-of-month d: the digits of d followed by its English ordinal
      suffix. */
  function DayWithSuffix(d: int): (s: string)
    requires 1 <= d <= 31
    ensures s == NatText(d) + (
      if 11 <= d <= 13 then "th"
      else if d % 10 == 1 then "st"
      else if d % 10 == 2 then "nd"
      else if d % 10 == 3 then "rd"
      else "th")
  {
    var x := NatText(d);
    DayDigits(d);
    x + (if |x| == 2 && x[0] == '1' then "th"
         else if x[|x| - 1] == '1' then "st"
         else if x[|x| - 1] == '2' then "nd"
         else if x[|x| - 1] == '3' then "rd"
         else "th")
  }

  lemma {:induction false} DayDigits(d: int)
    requires 1 <= d <= 31
    ensures d < 10 ==> NatText(d) == [Digit(d)]
    ensures d >= 10 ==> NatText(d) == [Digit(d / 10), Digit(d % 10)]
  {
    if d >= 10 {
      assert NatText(d / 10) == [Digit(d / 10)];
    }
  }
}

=== FILE: generate.dfy ===
/** The synthetic log generator (utils/generate.py): a day's half-hourly consumption turned
    into the pulse rows the monitor would have written, the usage table built from the
    supplier's consumption intervals, and the per-tariff totals used to compare tariffs. */
module Generate {
  import opened Wrappers
  import opened Numbers
  import opened Text
  import opened Clock
  import opened Records
  import opened Aggregate
  import opened Tariffs

  /** A day's consumption in kWh per half-hour slot, in slot order. */
  type Usage = u: seq<real> | |u| == 48 witness seq(48, _ => 0.0)

  /** int(round(kW * 1000)): the number of pulse rows a slot gets. */
  function Watts(kw: real): (w: int)
    ensures kw * 1000.0 - 0.5 <= w as real <= kw * 1000.0 + 0.5
    ensures (w as real == kw * 1000.0 - 0.5 || w as real == kw * 1000.0 + 0.5) ==> w % 2 == 0
  {
    RoundHalfEven(kw * 1000.0)
  }

  // ---------------------------------------------------------------- one slot's rows

  /** Seconds from local midnight to the start of a slot. */
  function SlotSecond(s: SlotIndex): (sec: real)
    ensures sec == 1800.0 * s as real
  {
    (SlotStart(s) * 60) as real
  }

  /** Seconds from local midnight of row i of a slot given w rows: the slot's 1800 seconds are
      shared out evenly. */
  function RowSecond(s: SlotIndex, w: nat, i: nat): real
    requires w > 0
  {
    SlotSecond(s) + i as real * (1800.0 / w as real)
  }

  lemma {:induction false} RowSecondInSlot(s: SlotIndex, w: nat, i: nat)
    requires i < w
    ensures SlotSecond(s) <= RowSecond(s, w, i) < SlotSecond(s) + 1800.0
  {
    var inc := 1800.0 / w as real;
    assert inc * w as real == 1800.0;
    assert i as real * inc < w as real * inc;
  }

  lemma {:induction false} RowSecondIncreasing(s: SlotIndex, w: nat, i: nat, j: nat)
    requires w > 0 && i < j
    ensures RowSecond(s, w, i) < RowSecond(s, w, j)
  {
    var inc := 1800.0 / w as real;
    assert j as real * inc - i as real * inc == (j - i) as real * inc;
  }

  /** Row i of slot s on `day`: lux "000.00", origin "generated", filed under the slot. */
  function GeneratedRow(day: int, s: SlotIndex, w: nat, i: nat): (r: Record)
    requires w > 0
    ensures r.lux == 0.0 && r.origin == Generated && r.stamp == SlotStamp(day, s)
    ensures r.epoch == DayStart(day) + RowSecond(s, w, i)
  {
    Record(0.0, DayStart(day) + RowSecond(s, w, i), SlotStamp(day, s), Generated)
  }

  /** Seconds since local midnight of `day`. */
  function SecondsInto(r: Record, day: int): real {
    r.epoch - DayStart(day)
  }

  /** A row is filed under the slot its own time falls in. */
  predicate InOwnSlot(r: Record, day: int) {
    r.stamp.day == day && SlotSecond(r.stamp.slot) <= SecondsInto(r, day) < SlotSecond(r.stamp.slot) + 1800.0
  }

  predicate Increasing(rows: seq<Record>) {
    forall a, b :: 0 <= a < b < |rows| ==> rows[a].epoch < rows[b].epoch
  }

  /** Stop the moment a row's time of day has reached the cutoff. */
  predicate Reached(cutoff: Option<real>, second: real) {
    cutoff.Some? && second >= cutoff.value
  }

  /** No row before the last one reached the cutoff, nor the last one unless the run stopped
      there. */
  predicate UntilCutoff(rows: seq<Record>, cutoff: Option<real>, day: int, stopped: bool) {
    forall k :: 0 <= k < |rows| - (if stopped then 1 else 0) ==> !Reached(cutoff, SecondsInto(rows[k], day))
  }

  /** A generated row of `day`, filed under its own slot, at or after slot `from`. */
  predicate GeneratedFrom(r: Record, day: int, from: int) {
    InOwnSlot(r, day) && r.lux == 0.0 && r.origin == Generated && r.stamp.slot >= from
  }

  datatype Block = Block(rows: seq<Record>, stopped: bool)

  /** The inner loop for rows i, i + 1, ... of a slot with w rows. */
  function SlotRows(day: int, s: SlotIndex, w: nat, i: nat, cutoff: Option<real>): (b: Block)
    requires 0 < w && i <= w
    ensures |b.rows| <= w - i
    ensures forall k :: 0 <= k < |b.rows| ==> b.rows[k] == GeneratedRow(day, s, w, i + k)
    ensures b.stopped ==> |b.rows| > 0 && Reached(cutoff, SecondsInto(b.rows[|b.rows| - 1], day))
    ensures UntilCutoff(b.rows, cutoff, day, b.stopped)
    ensures !b.stopped ==> |b.rows| == w - i
    decreases w - i
  {
    if i == w then Block([], false)
    else
      var r := GeneratedRow(day, s, w, i);
      if Reached(cutoff, RowSecond(s, w, i)) then Block([r], true)
      else
        var rest := SlotRows(day, s, w, i + 1, cutoff);
        Block([r] + rest.rows, rest.stopped)
  }

  lemma {:induction false} SlotRowsShape(day: int, s: SlotIndex, w: nat, cutoff: Option<real>)
    requires w > 0
    ensures var rows := SlotRows(day, s, w, 0, cutoff).rows;
      (forall k :: 0 <= k < |rows| ==> InOwnSlot(rows[k], day) && rows[k].stamp.slot == s) && Increasing(rows)
  {
    var rows := SlotRows(day, s, w, 0, cutoff).rows;
    forall k | 0 <= k < |rows| ensures InOwnSlot(rows[k], day) {
      RowSecondInSlot(s, w, k);
    }
    forall a, b | 0 <= a < b < |rows| ensures rows[a].epoch < rows[b].epoch {
      RowSecondIncreasing(s, w, a, b);
    }
  }

  // ---------------------------------------------------------------- the whole day

  datatype Finish = Completed | CutOff | ZeroWatts(slot: SlotIndex)

  datatype Written = Written(rows: seq<Record>, finish: Finish)

  /** write_electricity_usage_to_csv from slot `from` on, slots in time order. A slot whose
      usage rounds to 0 W stops the run with a division by zero; a negative count writes
      nothing for its slot. */
  function WriteUsage(usage: Usage, day: int, cutoff: Option<real>, from: nat := 0): (out: Written)
    requires from <= 48
    ensures forall k :: 0 <= k < |out.rows| ==> GeneratedFrom(out.rows[k], day, from)
    ensures Increasing(out.rows)
    ensures out.finish == CutOff ==> |out.rows| > 0 && Reached(cutoff, SecondsInto(out.rows[|out.rows| - 1], day))
    ensures UntilCutoff(out.rows, cutoff, day, out.finish == CutOff)
    ensures out.finish.ZeroWatts? ==> from <= out.finish.slot && Watts(usage[out.finish.slot]) == 0
    decreases 48 - from
  {
    if from == 48 then Written([], Completed)
    else
      var w := Watts(usage[from]);
      if w == 0 then Written([], ZeroWatts(from))
      else if w < 0 then WriteUsage(usage, day, cutoff, from + 1)
      else
        var block := SlotRows(day, from, w, 0, cutoff);
        SlotRowsShape(day, from, w, cutoff);
        if block.stopped then Written(block.rows, CutOff)
        else
          var rest := WriteUsage(usage, day, cutoff, from + 1);
          JoinBlocks(block.rows, rest.rows, day, from, cutoff, rest.finish == CutOff);
          Written(block.rows + rest.rows, rest.finish)
  }

  /** Rows of one slot, none at the cutoff, followed by rows of later slots: still in time
      order, still generated rows, and the cutoff rule still holds. */
  lemma {:induction false} JoinBlocks(a: seq<Record>, b: seq<Record>, day: int, s: SlotIndex, cutoff: Option<real>, stopped: bool)
    requires Increasing(a) && Increasing(b)
    requires forall k :: 0 <= k < |a| ==> InOwnSlot(a[k], day) && a[k].stamp.slot == s && a[k].lux == 0.0 && a[k].origin == Generated
    requires forall k :: 0 <= k < |b| ==> GeneratedFrom(b[k], day, s + 1)
    requires UntilCutoff(a, cutoff, day, false) && UntilCutoff(b, cutoff, day, stopped)
    ensures Increasing(a + b)
    ensures forall k :: 0 <= k < |a + b| ==> GeneratedFrom((a + b)[k], day, s)
    ensures UntilCutoff(a + b, cutoff, day, stopped)
  {
    forall x, y | 0 <= x < |a| <= y < |a| + |b| ensures (a + b)[x].epoch < (a + b)[y].epoch {
      assert SlotSecond(b[y - |a|].stamp.slot) >= SlotSecond(s) + 1800.0;
    }
  }

  // ---------------------------------------------------------------- what the generated log adds up to

  /** Without a cutoff the run ends early only at a slot whose usage rounds to 0 W, and then
      at the first such slot. */
  lemma {:induction false} WithoutCutoff(usage: Usage, day: int, from: nat)
    requires from <= 48
    ensures var out := WriteUsage(usage, day, None, from);
      && out.finish != CutOff
      && (out.finish == Completed <==> forall s :: from <= s < 48 ==> Watts(usage[s]) != 0)
      && (out.finish.ZeroWatts? ==> forall s :: from <= s < out.finish.slot ==> Watts(usage[s]) != 0)
  {
    FinishIsFirstZero(usage, day, from);
    FirstZeroWattsSpec(usage, from);
  }

  /** How a run without a cutoff ends, read off the usage alone: at the first slot from
      `from` on that rounds to 0 W, or completed when there is none. */
  function FirstZeroWatts(usage: Usage, from: nat): Finish
    requires from <= 48
    decreases 48 - from
  {
    if from == 48 then Completed
    else if Watts(usage[from]) == 0 then ZeroWatts(from)
    else FirstZeroWatts(usage, from + 1)
  }

  lemma {:induction false} FirstZeroWattsSpec(usage: Usage, from: nat)
    requires from <= 48
    ensures var f := FirstZeroWatts(usage, from);
      && f != CutOff
      && (f == Completed <==> forall s :: from <= s < 48 ==> Watts(usage[s]) != 0)
      && (f.ZeroWatts? ==> forall s :: from <= s < f.slot ==> Watts(usage[s]) != 0)
    decreases 48 - from
  {
    if from < 48 && Watts(usage[from]) != 0 {
      FirstZeroWattsSpec(usage, from + 1);
    }
  }

  /** Without a cutoff the generated run ends the way the usage alone says. */
  lemma {:induction false} FinishIsFirstZero(usage: Usage, day: int, from: nat)
    requires from <= 48
    ensures WriteUsage(usage, day, None, from).finish == FirstZeroWatts(usage, from)
    decreases 48 - from
  {
    if from < 48 && Watts(usage[from]) != 0 {
      SameFinish(usage, day, from);
      FinishIsFirstZero(usage, day, from + 1);
    }
  }

  /** Without a cutoff a slot that does not round to 0 W leaves the way the run ends to the
      later slots. */
  lemma {:induction false} SameFinish(usage: Usage, day: int, from: nat)
    requires from < 48 && Watts(usage[from]) != 0
    ensures WriteUsage(usage, day, None, from).finish == WriteUsage(usage, day, None, from + 1).finish
  {
    if Watts(usage[from]) > 0 {
      UnfoldWholeSlot(usage, day, from);
    }
  }

  /** Without a cutoff a slot with a positive count is written whole, then the later slots. */
  lemma {:induction false} UnfoldWholeSlot(usage: Usage, day: int, from: nat)
    requires from < 48 && Watts(usage[from]) > 0
    ensures var w := Watts(usage[from]);
      var rest := WriteUsage(usage, day, None, from + 1);
      WriteUsage(usage, day, None, from) == Written(SlotRows(day, from, w, 0, None).rows + rest.rows, rest.finish)
  {
    SlotRowsCount(day, from, Watts(usage[from]), 0, from);
  }

  /** Counting one slot's rows in a run that writes slot `from` whole. */
  lemma {:induction false} CountWholeSlot(usage: Usage, day: int, from: nat, slot: SlotIndex)
    requires from < 48 && Watts(usage[from]) > 0
    ensures CountIn(WriteUsage(usage, day, None, from).rows, day, slot)
      == (if slot == from then Watts(usage[from]) else 0) + CountIn(WriteUsage(usage, day, None, from + 1).rows, day, slot)
  {
    var w := Watts(usage[from]);
    UnfoldWholeSlot(usage, day, from);
    SlotRowsCount(day, from, w, 0, slot);
    CountInAppend(SlotRows(day, from, w, 0, None).rows, WriteUsage(usage, day, None, from + 1).rows, day, slot);
  }

  /** The rows of a slot from row i on, without a cutoff: w - i of them, all in that slot. */
  lemma {:induction false} SlotRowsCount(day: int, s: SlotIndex, w: nat, i: nat, slot: SlotIndex)
    requires 0 < w && i <= w
    ensures !SlotRows(day, s, w, i, None).stopped
    ensures CountIn(SlotRows(day, s, w, i, None).rows, day, slot) == if slot == s then w - i else 0
    decreases w - i
  {
    if i < w {
      var b := SlotRows(day, s, w, i, None);
      var rest := SlotRows(day, s, w, i + 1, None);
      SlotRowsCount(day, s, w, i + 1, slot);
      assert b.rows == [GeneratedRow(day, s, w, i)] + rest.rows;
      assert b.rows[1..] == rest.rows;
    }
  }

  /** With no cutoff and no slot rounding to 0 W, every slot gets exactly its rounded watts in
      rows (none for a negative figure), so the full scan counts those back. */
  lemma {:induction false} GeneratedCounts(usage: Usage, day: int, from: nat)
    requires from <= 48
    requires forall s :: from <= s < 48 ==> Watts(usage[s]) != 0
    ensures forall slot: SlotIndex ::
      CountIn(WriteUsage(usage, day, None, from).rows, day, slot) == (if slot >= from then Max(0, Watts(usage[slot])) else 0)
    decreases 48 - from
  {
    if from < 48 {
      var w := Watts(usage[from]);
      GeneratedCounts(usage, day, from + 1);
      if w > 0 {
        forall slot: SlotIndex {
          CountWholeSlot(usage, day, from, slot);
        }
      }
    }
  }

  /** The generated day's log, read back by the full scan. */
  lemma {:induction false} GeneratedLogCounts(usage: Usage, day: int)
    requires forall s :: 0 <= s < 48 ==> Watts(usage[s]) != 0
    ensures var out := WriteUsage(usage, day, None);
      && out.finish == Completed
      && forall slot: SlotIndex :: CountsOf(out.rows, day)[slot] == Max(0, Watts(usage[slot]))
  {
    WithoutCutoff(usage, day, 0);
    GeneratedCounts(usage, day, 0);
  }

  // ---------------------------------------------------------------- the usage table

  /** One consumption interval from the supplier, its ends in minutes from local midnight. */
  datatype Consumption = Consumption(interval: Span, kw: real)

  datatype UsageError = WrongCount(got: nat) | Unfilled

  function ConsumptionSpans(result: seq<Consumption>): (spans: seq<Span>)
    ensures |spans| == |result| && forall j :: 0 <= j < |result| ==> spans[j] == result[j].interval
  {
    seq(|result|, j requires 0 <= j < |result| => result[j].interval)
  }

  /** generate_time_kilowatt_usage_dict: exactly 48 intervals are demanded, then each slot takes
      the consumption of the first interval covering its start, and every slot must be filled. */
  function UsageToDict(result: seq<Consumption>): (r: Result<Usage, UsageError>)
    ensures |result| != 48 ==> r == Err(WrongCount(|result|))
    ensures r.Ok? <==> |result| == 48 && forall i: SlotIndex :: exists j :: 0 <= j < |result| && Covers(result[j].interval, SlotStart(i))
    ensures r.Ok? ==> forall i: SlotIndex, j ::
      (0 <= j < |result| && Covers(result[j].interval, SlotStart(i))
       && (forall j' :: 0 <= j' < j ==> !Covers(result[j'].interval, SlotStart(i)))) ==> r.value[i] == result[j].kw
  {
    if |result| != 48 then Err(WrongCount(|result|))
    else
      var spans := ConsumptionSpans(result);
      if forall i :: 0 <= i < 48 ==> FirstCovering(spans, SlotStart(i)).Some? then
        var usage: Usage := seq(48, i requires 0 <= i < 48 => result[FirstCovering(spans, SlotStart(i)).value].kw);
        FirstCoveringIsFirst(result, usage);
        Ok(usage)
      else
        assert exists i :: 0 <= i < 48 && FirstCovering(spans, SlotStart(i)).None?;
        Err(Unfilled)
  }

  lemma {:induction false} FirstCoveringIsFirst(result: seq<Consumption>, usage: Usage)
    requires forall i :: 0 <= i < 48 ==> FirstCovering(ConsumptionSpans(result), SlotStart(i)).Some?
    requires forall i :: 0 <= i < 48 ==> usage[i] == result[FirstCovering(ConsumptionSpans(result), SlotStart(i)).value].kw
    ensures forall i: SlotIndex, j ::
      (0 <= j < |result| && Covers(result[j].interval, SlotStart(i))
       && (forall j' :: 0 <= j' < j ==> !Covers(result[j'].interval, SlotStart(i)))) ==> usage[i] == result[j].kw
  {
    var spans := ConsumptionSpans(result);
    forall i: SlotIndex, j | 0 <= j < |result| && Covers(result[j].interval, SlotStart(i))
      && (forall j' :: 0 <= j' < j ==> !Covers(result[j'].interval, SlotStart(i)))
      ensures usage[i] == result[j].kw
    {
      assert Covers(spans[j], SlotStart(i));
    }
  }

  // ---------------------------------------------------------------- the concise file

  /** write_electricity_usage_to_concise_csv: a header, then one row per slot in time order. */
  function ConciseCsv(usage: Usage, date: string): (rows: seq<CsvRow>)
    ensures |rows| == 49 && rows[0] == Header(["Date", "Time", "Usage (kW)"])
    ensures forall i :: 1 <= i < 49 ==> rows[i] == Row(date, Label(SlotStart(i - 1)), usage[i - 1])
  {
    HeaderThen(Header(["Date", "Time", "Usage (kW)"]), seq(48, i requires 0 <= i < 48 => Row(date, Label(SlotStart(i)), usage[i])))
  }

  /** The slot starts in time order. */
  function SlotStarts(): (keys: seq<Minute>)
    ensures |keys| == 48 && forall i :: 0 <= i < 48 ==> keys[i] == SlotStart(i)
  {
    seq(48, i requires 0 <= i < 48 => SlotStart(i))
  }

  /** A day's usage as a time-of-day table, the shape the program keeps it in. */
  function UsageTable(usage: Usage): (t: PriceTable)
    ensures forall m: Minute :: m in t <==> m % 30 == 0
    ensures forall i: SlotIndex :: SlotStart(i) in t && t[SlotStart(i)] == usage[i]
  {
    map m: Minute | m % 30 == 0 :: usage[m / 30]
  }

  /** The concise file's times are in string order. */
  lemma {:induction false} ConciseCsvSorted(usage: Usage, date: string)
    ensures var rows := ConciseCsv(usage, date);
      forall i, j :: 1 <= i < j < 49 ==> LexLess(rows[i].time, rows[j].time)
  {
    var rows := ConciseCsv(usage, date);
    forall i, j | 1 <= i < j < 49 ensures LexLess(rows[i].time, rows[j].time) {
      LabelOrdered(SlotStart(i - 1), SlotStart(j - 1));
    }
  }

  /** Reading the concise file back as a keyed table gives the day's usage, slot by slot. */
  lemma {:induction false} ConciseCsvReadsBack(usage: Usage, date: string)
    ensures ReadPriceCsv(ConciseCsv(usage, date)) == UsageTable(usage)
  {
    SlotStartsAreTableKeys(usage);
    ConciseRowsAreKeyed(usage, date);
    ReadKeyedFile(ConciseCsv(usage, date), SlotStarts(), UsageTable(usage), date);
  }

  lemma {:induction false} SlotStartsAreTableKeys(usage: Usage)
    ensures forall m: Minute :: m in UsageTable(usage) <==> m in SlotStarts()
  {
    var keys := SlotStarts();
    forall m: Minute | m in UsageTable(usage) ensures m in keys {
      var i := m / 30;
      assert m == 30 * i + m % 30;
      assert keys[i] == m;
    }
  }

  lemma {:induction false} ConciseRowsAreKeyed(usage: Usage, date: string)
    ensures var rows := ConciseCsv(usage, date); var keys := SlotStarts(); var t := UsageTable(usage);
      forall i :: 1 <= i < |rows| ==> keys[i - 1] in t && rows[i] == Row(date, Label(keys[i - 1]), t[keys[i - 1]])
  {
  }

  // ---------------------------------------------------------------- comparing tariffs

  datatype Stats = Stats(power: real, cost: real)

  datatype StatsError = WrongPriceCount(got: nat) | OffGridTime | NoDays | ZeroPower

  /** The day's slots from `from` on that the price table has an entry for: usage summed, and
      usage times price summed. */
  function SlotSums(usage: Usage, prices: PriceTable, from: nat): Stats
    requires from <= 48
    decreases 48 - from
  {
    if from == 48 then Stats(0.0, 0.0)
    else
      var rest := SlotSums(usage, prices, from + 1);
      if SlotStart(from) in prices then
        Stats(usage[from] + rest.power, usage[from] * prices[SlotStart(from)] + rest.cost)
      else rest
  }

  /** The day's consumption over slots `from` to 47. */
  function UsageSum(usage: Usage, from: nat): real
    requires from <= 48
    decreases 48 - from
  {
    if from == 48 then 0.0 else usage[from] + UsageSum(usage, from + 1)
  }

  /** Every key of the table is a slot start, so the usage table has an entry for it. */
  predicate OnGrid(prices: PriceTable) {
    forall m :: m in prices ==> m % 30 == 0
  }

  /** One tariff's day in generate_stats: a price table without exactly 48 entries is refused,
      a time that is not a slot start has no usage entry (the lookup fails), and otherwise the
      slots of the table are summed. A full, on-grid table covers every slot, so the power is
      the day's whole consumption whatever the tariff. */
  function DayStats(prices: PriceTable, usage: Usage): (r: Result<Stats, StatsError>)
    ensures |prices| != 48 ==> r == Err(WrongPriceCount(|prices|))
    ensures r == Err(OffGridTime) <==> |prices| == 48 && !OnGrid(prices)
    ensures r.Ok? <==> |prices| == 48 && OnGrid(prices)
    ensures r.Ok? ==> r.value == SlotSums(usage, prices, 0) && r.value.power == UsageSum(usage, 0)
  {
    if |prices| != 48 then Err(WrongPriceCount(|prices|))
    else if !OnGrid(prices) then Err(OffGridTime)
    else
      FullTableCoversSlots(prices);
      PricedPowerIsUsage(usage, prices, 0);
      Ok(SlotSums(usage, prices, 0))
  }

  /** When every slot is priced, the summed power is the day's consumption. */
  lemma {:induction false} PricedPowerIsUsage(usage: Usage, prices: PriceTable, from: nat)
    requires from <= 48
    requires forall i: SlotIndex :: SlotStart(i) in prices
    ensures SlotSums(usage, prices, from).power == UsageSum(usage, from)
    decreases 48 - from
  {
    if from < 48 { PricedPowerIsUsage(usage, prices, from + 1); }
  }

  /** The slot starts below slot n. */
  function GridBelow(n: nat): (g: set<Minute>)
    requires n <= 48
    ensures |g| == n
    ensures forall m: Minute :: m in g <==> m % 30 == 0 && m < 30 * n
  {
    if n == 0 then {} else
      var g := GridBelow(n - 1);
      assert SlotStart(n - 1) !in g;
      g + {SlotStart(n - 1)}
  }

  lemma {:induction false} SubsetSize(a: set<Minute>, b: set<Minute>)
    requires a <= b
    ensures |a| <= |b|
    decreases |a|
  {
    if a != {} {
      var x :| x in a;
      assert a == (a - {x}) + {x};
      assert b == (b - {x}) + {x};
      SubsetSize(a - {x}, b - {x});
    }
  }

  /** 48 entries, all at slot starts: every slot start is there. */
  lemma {:induction false} FullTableCoversSlots(prices: PriceTable)
    requires |prices| == 48 && OnGrid(prices)
    ensures forall i: SlotIndex :: SlotStart(i) in prices
  {
    forall i: SlotIndex ensures SlotStart(i) in prices {
      if SlotStart(i) !in prices {
        MissingSlotMeansFewer(prices, i, 48);
      }
    }
  }

  /** A table keyed by slot starts below slot n, without one of them, has fewer than n entries. */
  lemma {:induction false} MissingSlotMeansFewer(prices: PriceTable, i: SlotIndex, n: nat)
    requires i < n <= 48
    requires OnGrid(prices) && forall m :: m in prices ==> m < 30 * n
    requires SlotStart(i) !in prices
    ensures |prices| < n
  {
    var rest := GridBelow(n) - {SlotStart(i)};
    GridWithoutOne(n, SlotStart(i));
    forall m | m in prices.Keys ensures m in rest {
      assert m in GridBelow(n);
    }
    SubsetSize(prices.Keys, rest);
  }

  lemma {:induction false} GridWithoutOne(n: nat, x: Minute)
    requires n <= 48 && x % 30 == 0 && x < 30 * n
    ensures |GridBelow(n) - {x}| == n - 1
  {
    var grid := GridBelow(n);
    assert grid == (grid - {x}) + {x};
  }

  /** With the same slots priced and no price higher, a tariff never costs more for the same
      (non-negative) consumption. */
  lemma {:induction false} CheaperTariffCostsLess(usage: Usage, cheap: PriceTable, dear: PriceTable, from: nat)
    requires from <= 48
    requires forall m :: m in cheap <==> m in dear
    requires forall m :: m in cheap ==> cheap[m] <= dear[m]
    requires forall i :: 0 <= i < 48 ==> usage[i] >= 0.0
    ensures SlotSums(usage, cheap, from).power == SlotSums(usage, dear, from).power
    ensures SlotSums(usage, cheap, from).cost <= SlotSums(usage, dear, from).cost
    decreases 48 - from
  {
    if from < 48 {
      CheaperTariffCostsLess(usage, cheap, dear, from + 1);
      if SlotStart(from) in cheap {
        var m := SlotStart(from);
        assert usage[from] * cheap[m] <= usage[from] * dear[m] by {
          assert usage[from] * (dear[m] - cheap[m]) >= 0.0;
        }
      }
    }
  }

  /** One tariff's price table and the day's usage. */
  datatype PricedDay = PricedDay(prices: PriceTable, usage: Usage)

  function DaysUsage(days: seq<PricedDay>): real
    decreases |days|
  {
    if |days| == 0 then 0.0 else UsageSum(days[0].usage, 0) + DaysUsage(days[1..])
  }

  /** One tariff's days summed: power and cost added up day by day, the first refused day
      making the whole sum fail. */
  function SumDays(days: seq<PricedDay>): (r: Result<Stats, StatsError>)
    ensures r.Ok? <==> forall k :: 0 <= k < |days| ==> DayStats(days[k].prices, days[k].usage).Ok?
    ensures r.Ok? ==> r.value.power == DaysUsage(days)
    ensures r.Err? ==> r.error.WrongPriceCount? || r.error.OffGridTime?
    decreases |days|
  {
    if |days| == 0 then Ok(Stats(0.0, 0.0))
    else
      match DayStats(days[0].prices, days[0].usage)
      case Err(e) => Err(e)
      case Ok(day) =>
        var rest := SumDays(days[1..]);
        assert forall k :: 1 <= k < |days| ==> days[k] == days[1..][k - 1];
        match rest
        case Err(e) => Err(e)
        case Ok(later) => Ok(Stats(day.power + later.power, day.cost + later.cost))
  }

  /** generate_stats for one tariff over the days fetched. With no days at all the run fails
      before any price is read (the first of no day keys); otherwise the days are summed, and
      the cost per kWh the summary reports divides by the summed power, so a total of 0 kWh
      fails too. */
  function TariffStats(days: seq<PricedDay>): (r: Result<Stats, StatsError>)
    ensures |days| == 0 ==> r == Err(NoDays)
    ensures r.Ok? <==>
      && |days| > 0
      && (forall k :: 0 <= k < |days| ==> DayStats(days[k].prices, days[k].usage).Ok?)
      && DaysUsage(days) != 0.0
    ensures r == Err(ZeroPower) <==>
      && |days| > 0
      && (forall k :: 0 <= k < |days| ==> DayStats(days[k].prices, days[k].usage).Ok?)
      && DaysUsage(days) == 0.0
    ensures r.Ok? ==> r.value.power == DaysUsage(days)
  {
    if |days| == 0 then Err(NoDays)
    else
      match SumDays(days)
      case Err(e) => Err(e)
      case Ok(total) => if total.power == 0.0 then Err(ZeroPower) else Ok(total)
  }

  /** Days that used no electricity at all: every accepted tariff's summary fails on the
      division by zero kWh. */
  lemma {:induction false} NoConsumptionFails(days: seq<PricedDay>)
    requires |days| > 0
    requires forall k :: 0 <= k < |days| ==> DayStats(days[k].prices, days[k].usage).Ok?
    requires forall k, i :: 0 <= k < |days| && 0 <= i < 48 ==> days[k].usage[i] == 0.0
    ensures TariffStats(days) == Err(ZeroPower)
  {
    NoUsageDays(days);
  }

  lemma {:induction false} NoUsageDays(days: seq<PricedDay>)
    requires forall k, i :: 0 <= k < |days| && 0 <= i < 48 ==> days[k].usage[i] == 0.0
    ensures DaysUsage(days) == 0.0
    decreases |days|
  {
    if |days| > 0 {
      NoUsage(days[0].usage, 0);
      NoUsageDays(days[1..]);
    }
  }

  lemma {:induction false} NoUsage(usage: Usage, from: nat)
    requires from <= 48
    requires forall i :: 0 <= i < 48 ==> usage[i] == 0.0
    ensures UsageSum(usage, from) == 0.0
    decreases 48 - from
  {
    if from < 48 { NoUsage(usage, from + 1); }
  }

  // ---------------------------------------------------------------- the whole comparison

  /** The price fetch of generate_stats: every tariff's tables in turn, day by day, the first
      table without exactly 48 entries stopping the run. */
  function CountCheck(tariffs: seq<seq<PricedDay>>): (r: Option<StatsError>)
    ensures r.None? <==> forall k, i :: 0 <= k < |tariffs| && 0 <= i < |tariffs[k]| ==> |tariffs[k][i].prices| == 48
    ensures r.Some? ==> r.value.WrongPriceCount?
    decreases |tariffs|
  {
    if |tariffs| == 0 then None
    else match DaysCountCheck(tariffs[0])
      case Some(e) => Some(e)
      case None =>
        var rest := CountCheck(tariffs[1..]);
        assert forall k :: 1 <= k < |tariffs| ==> tariffs[k] == tariffs[1..][k - 1];
        rest
  }

  function DaysCountCheck(days: seq<PricedDay>): (r: Option<StatsError>)
    ensures r.None? <==> forall i :: 0 <= i < |days| ==> |days[i].prices| == 48
    ensures r.Some? ==> r.value.WrongPriceCount?
    decreases |days|
  {
    if |days| == 0 then None
    else if |days[0].prices| != 48 then Some(WrongPriceCount(|days[0].prices|))
    else
      var rest := DaysCountCheck(days[1..]);
      assert forall i :: 1 <= i < |days| ==> days[i] == days[1..][i - 1];
      rest
  }

  /** The summing loop of generate_stats over the tariffs' own summaries, in turn: all the
      totals, or the first failure, which stops the run. */
  function SumTariffs(results: seq<Result<Stats, StatsError>>): (r: Result<seq<Stats>, StatsError>)
    ensures r.Ok? <==> forall k :: 0 <= k < |results| ==> results[k].Ok?
    ensures r.Ok? ==> |r.value| == |results| && forall k :: 0 <= k < |results| ==> r.value[k] == results[k].value
    ensures r.Err? ==> exists k :: 0 <= k < |results| && results[k] == Err(r.error) && forall j :: 0 <= j < k ==> results[j].Ok?
    decreases |results|
  {
    if |results| == 0 then Ok([])
    else match results[0]
      case Err(e) => Err(e)
      case Ok(first) =>
        var rest := SumTariffs(results[1..]);
        assert forall k :: 1 <= k < |results| ==> results[k] == results[1..][k - 1];
        match rest
        case Err(e) =>
          var k :| 0 <= k < |results| - 1 && results[1..][k] == Err(e) && forall j :: 0 <= j < k ==> results[1..][j].Ok?;
          assert results[k + 1] == Err(e);
          Err(e)
        case Ok(later) => Ok([first] + later)
  }

  /** generate_stats over every configured tariff, each fetched for the same `usageDays` days.
      No days fails first (the first of no day keys); then every tariff's tables are fetched
      and any table without 48 entries stops the run; then the tariffs are summed in turn,
      and an off-grid time or a zero-kWh total stops the run. Whatever fails is re-raised, so
      one failing tariff leaves every tariff without totals. */
  function GenerateStats(usageDays: nat, tariffs: seq<seq<PricedDay>>): (r: Result<seq<Stats>, StatsError>)
    requires forall k :: 0 <= k < |tariffs| ==> |tariffs[k]| == usageDays
    ensures usageDays == 0 ==> r == Err(NoDays)
    ensures r.Ok? <==> usageDays > 0 && forall k :: 0 <= k < |tariffs| ==> TariffStats(tariffs[k]).Ok?
    ensures r.Ok? ==> |r.value| == |tariffs| && forall k :: 0 <= k < |tariffs| ==> r.value[k] == TariffStats(tariffs[k]).value
    ensures usageDays > 0 && CountCheck(tariffs).Some? ==> r == Err(CountCheck(tariffs).value)
  {
    if usageDays == 0 then Err(NoDays)
    else match CountCheck(tariffs)
      case Some(e) => Err(e)
      case None =>
        var results := seq(|tariffs|, k requires 0 <= k < |tariffs| => TariffStats(tariffs[k]));
        assert forall k :: 0 <= k < |tariffs| ==> results[k] == TariffStats(tariffs[k]);
        SumTariffs(results)
  }

  /** A single table without 48 entries, in any tariff, leaves every tariff without totals,
      however good the others' days are. */
  lemma {:induction false} OneRefusedTableStopsAll(usageDays: nat, tariffs: seq<seq<PricedDay>>, k: nat, i: nat)
    requires forall j :: 0 <= j < |tariffs| ==> |tariffs[j]| == usageDays
    requires k < |tariffs| && i < |tariffs[k]| && |tariffs[k][i].prices| != 48
    ensures GenerateStats(usageDays, tariffs).Err? && GenerateStats(usageDays, tariffs).error.WrongPriceCount?
  {
  }

  /** Totals for the whole run mean totals for each tariff on its own. */
  lemma {:induction false} RunTotalsArePerTariff(usageDays: nat, tariffs: seq<seq<PricedDay>>, k: nat)
    requires forall j :: 0 <= j < |tariffs| ==> |tariffs[j]| == usageDays
    requires GenerateStats(usageDays, tariffs).Ok? && k < |tariffs|
    ensures TariffStats(tariffs[k]).Ok? && GenerateStats(usageDays, tariffs).value[k] == TariffStats(tariffs[k]).value
    ensures TariffStats(tariffs[k]).value.power == DaysUsage(tariffs[k])
  {
  }

  /** Two tariffs compared over the same days report the same power: only their costs differ. */
  lemma {:induction false} TariffsAgreeOnPower(a: seq<PricedDay>, b: seq<PricedDay>)
    requires |a| == |b| && forall k :: 0 <= k < |a| ==> a[k].usage == b[k].usage
    requires TariffStats(a).Ok? && TariffStats(b).Ok?
    ensures TariffStats(a).value.power == TariffStats(b).value.power
  {
    SameUsageSamePower(a, b);
  }

  lemma {:induction false} SameUsageSamePower(a: seq<PricedDay>, b: seq<PricedDay>)
    requires |a| == |b| && forall k :: 0 <= k < |a| ==> a[k].usage == b[k].usage
    ensures DaysUsage(a) == DaysUsage(b)
    decreases |a|
  {
    if |a| > 0 {
      SameUsageSamePower(a[1..], b[1..]);
    }
  }
}

=== FILE: logfiles.dfy ===
/** Day log files as text: how the program iterates their lines, counts them, and
    repairs them after a power cut (utils/file.py and the copies in energy_monitor.py). */
module LogFiles {
  import opened Text
  import opened Records

  // ---------------------------------------------------------------- lines

  /** Index of the first newline of c, or |c| when there is none. */
  function NewlineIndex(c: string): (n: nat)
    ensures n <= |c|
    ensures n < |c| ==> c[n] == '\n'
    ensures forall i :: 0 <= i < n ==> c[i] != '\n'
    decreases |c|
  {
    if |c| == 0 then 0
    else if c[0] == '\n' then 0
    else 1 + NewlineIndex(c[1..])
  }

  /** `for line in f`: every line keeps its newline; a final line without one is still a line. */
  function Lines(c: string): seq<string>
    decreases |c|
  {
    if |c| == 0 then []
    else
      var n := NewlineIndex(c);
      if n == |c| then [c] else [c[..n + 1]] + Lines(c[n + 1..])
  }

  function Concat(ls: seq<string>): string
    decreases |ls|
  {
    if |ls| == 0 then "" else ls[0] + Concat(ls[1..])
  }

  /** A newline only at the end of a non-empty line. */
  predicate SingleLine(l: string) {
    |l| > 0 && forall j :: 0 <= j < |l| - 1 ==> l[j] != '\n'
  }

  predicate EndsLine(l: string) {
    |l| > 0 && l[|l| - 1] == '\n'
  }

  /** What a file's line iteration can yield: single lines, all but the last terminated. */
  predicate WellFormedLines(ls: seq<string>) {
    && (forall i :: 0 <= i < |ls| ==> SingleLine(ls[i]))
    && (forall i :: 0 <= i < |ls| - 1 ==> EndsLine(ls[i]))
  }

  lemma {:induction false} NewlineIndexOfLine(l: string, rest: string)
    requires SingleLine(l) && EndsLine(l)
    ensures NewlineIndex(l + rest) == |l| - 1
  {
    assert (l + rest)[|l| - 1] == '\n';
    assert forall j :: 0 <= j < |l| - 1 ==> (l + rest)[j] == l[j];
  }

  lemma {:induction false} NewlineIndexOfLastLine(l: string)
    requires SingleLine(l) && !EndsLine(l)
    ensures NewlineIndex(l) == |l|
  {
  }

  lemma {:induction false} WellFormedCons(l: string, tail: seq<string>)
    requires SingleLine(l) && EndsLine(l) && WellFormedLines(tail)
    ensures WellFormedLines([l] + tail)
  {
    var ls := [l] + tail;
    forall i | 0 <= i < |ls| ensures SingleLine(ls[i]) { if i > 0 { assert ls[i] == tail[i - 1]; } }
    forall i | 0 <= i < |ls| - 1 ensures EndsLine(ls[i]) { if i > 0 { assert ls[i] == tail[i - 1]; } }
  }

  lemma {:induction false} WellFormedTail(ls: seq<string>)
    requires |ls| > 0 && WellFormedLines(ls)
    ensures WellFormedLines(ls[1..])
  {
    forall i | 0 <= i < |ls| - 1 ensures SingleLine(ls[1..][i]) { assert ls[1..][i] == ls[i + 1]; }
    forall i | 0 <= i < |ls| - 2 ensures EndsLine(ls[1..][i]) { assert ls[1..][i] == ls[i + 1]; }
  }

  lemma {:induction false} FirstLine(c: string)
    requires NewlineIndex(c) < |c|
    ensures SingleLine(c[..NewlineIndex(c) + 1]) && EndsLine(c[..NewlineIndex(c) + 1])
  {
    var n := NewlineIndex(c);
    assert forall j :: 0 <= j <= n ==> c[..n + 1][j] == c[j];
  }

  /** Splitting a file into lines and writing them back gives the same text. */
  lemma {:induction false} LinesConcat(c: string)
    ensures Concat(Lines(c)) == c
    ensures WellFormedLines(Lines(c))
    decreases |c|
  {
    if |c| > 0 {
      var n := NewlineIndex(c);
      if n < |c| {
        var l, rest := c[..n + 1], c[n + 1..];
        LinesConcat(rest);
        FirstLine(c);
        WellFormedCons(l, Lines(rest));
        LinesCons(c);
        ConcatCons(l, Lines(rest));
        TakeDrop(c, n + 1);
      } else {
        LastLine(c);
      }
    }
  }

  lemma {:induction false} TakeDrop(c: string, k: nat)
    requires k <= |c|
    ensures c[..k] + c[k..] == c
  {
  }

  lemma {:induction false} LinesCons(c: string)
    requires NewlineIndex(c) < |c|
    ensures Lines(c) == [c[..NewlineIndex(c) + 1]] + Lines(c[NewlineIndex(c) + 1..])
  {
  }

  lemma {:induction false} ConcatCons(l: string, ls: seq<string>)
    ensures Concat([l] + ls) == l + Concat(ls)
  {
    assert ([l] + ls)[1..] == ls;
  }

  lemma {:induction false} LastLine(c: string)
    requires |c| > 0 && NewlineIndex(c) == |c|
    ensures Lines(c) == [c] && Concat([c]) == c && WellFormedLines([c])
  {
    assert Concat([c]) == c + Concat([]);
  }


  /** Writing well-formed lines out and iterating the file again yields the same lines. */
  lemma {:induction false} ConcatLines(ls: seq<string>)
    requires WellFormedLines(ls)
    ensures Lines(Concat(ls)) == ls
    decreases |ls|
  {
    if |ls| > 0 {
      var l, rest := ls[0], Concat(ls[1..]);
      assert Concat(ls) == l + rest;
      WellFormedTail(ls);
      ConcatLines(ls[1..]);
      if EndsLine(l) {
        NewlineIndexOfLine(l, rest);
        assert (l + rest)[..|l|] == l;
        assert (l + rest)[|l|..] == rest;
      } else {
        assert |ls| == 1;
        assert rest == "";
        assert l + rest == l;
        NewlineIndexOfLastLine(l);
      }
    }
  }

  // ---------------------------------------------------------------- text mode

  /** What a text-mode read (Python's universal newlines) yields for the file's characters c:
      "\r\n" and a lone "\r" each become "\n"; nothing else changes. */
  function ReadText(c: string): (t: string)
    ensures NoCarriageReturn(t)
    ensures |t| <= |c| && (|t| == 0 <==> |c| == 0)
    ensures NoCarriageReturn(c) ==> t == c
    decreases |c|
  {
    if |c| == 0 then ""
    else if c[0] == '\r' then
      var skip := if |c| > 1 && c[1] == '\n' then 2 else 1;
      "\n" + ReadText(c[skip..])
    else
      assert NoCarriageReturn(c) ==> NoCarriageReturn(c[1..]);
      [c[0]] + ReadText(c[1..])
  }

  /** `for line in f` on a file opened in text mode: the lines of the translated text. */
  function FileLines(c: string): seq<string> {
    Lines(ReadText(c))
  }

  /** Iterating a file and writing its lines back gives the translated text: the same text when
      it has no carriage return, and otherwise one in which every line ends in "\n" alone. */
  lemma {:induction false} FileLinesRoundTrip(c: string)
    ensures Concat(FileLines(c)) == ReadText(c)
    ensures WellFormedLines(FileLines(c))
    ensures forall i :: 0 <= i < |FileLines(c)| ==> NoCarriageReturn(FileLines(c)[i])
    ensures NoCarriageReturn(c) ==> FileLines(c) == Lines(c) && Concat(FileLines(c)) == c
  {
    LinesConcat(ReadText(c));
    LinesKeepNoCarriageReturn(ReadText(c));
  }

  lemma {:induction false} LinesKeepNoCarriageReturn(t: string)
    requires NoCarriageReturn(t)
    ensures forall i :: 0 <= i < |Lines(t)| ==> NoCarriageReturn(Lines(t)[i])
    decreases |t|
  {
    if |t| > 0 {
      var n := NewlineIndex(t);
      if n < |t| {
        var l, rest := t[..n + 1], t[n + 1..];
        SliceKeepsNoCarriageReturn(t, 0, n + 1);
        SliceKeepsNoCarriageReturn(t, n + 1, |t|);
        assert t[0..n + 1] == l && t[n + 1..|t|] == rest;
        LinesKeepNoCarriageReturn(rest);
        LinesCons(t);
        var ls := Lines(t);
        assert ls == [l] + Lines(rest);
        forall i | 0 <= i < |ls| ensures NoCarriageReturn(ls[i]) {
          if i > 0 { assert ls[i] == Lines(rest)[i - 1]; }
        }
      } else {
        LastLine(t);
      }
    }
  }

  lemma {:induction false} SliceKeepsNoCarriageReturn(t: string, from: nat, to: nat)
    requires NoCarriageReturn(t) && from <= to <= |t|
    ensures NoCarriageReturn(t[from..to])
  {
    forall j | 0 <= j < to - from ensures t[from..to][j] != '\r' {
      assert t[from..to][j] == t[from + j];
    }
  }

  lemma {:induction false} ConcatKeepsNoCarriageReturn(ls: seq<string>)
    requires forall i :: 0 <= i < |ls| ==> NoCarriageReturn(ls[i])
    ensures NoCarriageReturn(Concat(ls))
    decreases |ls|
  {
    if |ls| > 0 {
      ConcatKeepsNoCarriageReturn(ls[1..]);
      var a, b := ls[0], Concat(ls[1..]);
      assert Concat(ls) == a + b;
      forall j | 0 <= j < |a + b| ensures (a + b)[j] != '\r' {
        if j < |a| { assert (a + b)[j] == a[j]; } else { assert (a + b)[j] == b[j - |a|]; }
      }
    }
  }

  lemma {:induction false} ReadTextPlainPrefix(a: string, rest: string)
    requires forall j :: 0 <= j < |a| ==> a[j] != '\r'
    ensures ReadText(a + rest) == a + ReadText(rest)
    decreases |a|
  {
    if |a| > 0 {
      var c := a + rest;
      assert c[0] == a[0] && c[1..] == a[1..] + rest;
      ReadTextPlainStep(c);
      ReadTextPlainPrefix(a[1..], rest);
      assert [a[0]] + (a[1..] + ReadText(rest)) == a + ReadText(rest);
    } else {
      assert a + rest == rest;
    }
  }

  lemma {:induction false} ReadTextPlainStep(c: string)
    requires |c| > 0 && c[0] != '\r'
    ensures ReadText(c) == [c[0]] + ReadText(c[1..])
  {
  }

  lemma {:induction false} ReadTextLoneReturn(rest: string)
    requires |rest| == 0 || rest[0] != '\n'
    ensures ReadText("\r" + rest) == "\n" + ReadText(rest)
  {
    assert ("\r" + rest)[1..] == rest;
  }

  lemma {:induction false} ReadTextReturnNewline(rest: string)
    ensures ReadText("\r\n" + rest) == "\n" + ReadText(rest)
  {
    assert ("\r\n" + rest)[2..] == rest;
  }

  /** A terminated line followed by more text is the first line of that text. */
  lemma {:induction false} LinesAfterLine(l: string, t: string)
    requires SingleLine(l) && EndsLine(l)
    ensures Lines(l + t) == [l] + Lines(t)
  {
    NewlineIndexOfLine(l, t);
    LinesCons(l + t);
    assert (l + t)[..|l|] == l && (l + t)[|l|..] == t;
  }

  /** "\n", "\r\n" and a lone "\r" all end a line, and each is read as "\n". */
  lemma {:induction false} LineEnds(a: string, b: string)
    requires forall j :: 0 <= j < |a| ==> a[j] != '\n' && a[j] != '\r'
    ensures FileLines(a + "\n" + b) == [a + "\n"] + FileLines(b)
    ensures FileLines(a + "\r\n" + b) == [a + "\n"] + FileLines(b)
    ensures |b| == 0 || b[0] != '\n' ==> FileLines(a + "\r" + b) == [a + "\n"] + FileLines(b)
  {
    assert ("\n" + b)[0] == '\n' && ("\n" + b)[1..] == b;
    LineEndedBy(a, "\n", b);
    ReadTextReturnNewline(b);
    LineEndedBy(a, "\r\n", b);
    if |b| == 0 || b[0] != '\n' {
      ReadTextLoneReturn(b);
      LineEndedBy(a, "\r", b);
    }
  }

  /** A line body followed by a line end that reads as "\n". */
  lemma {:induction false} LineEndedBy(a: string, end: string, b: string)
    requires forall j :: 0 <= j < |a| ==> a[j] != '\n' && a[j] != '\r'
    requires ReadText(end + b) == "\n" + ReadText(b)
    ensures FileLines(a + end + b) == [a + "\n"] + FileLines(b)
  {
    LineBody(a);
    ReadLineBody(a, end, b);
    LinesAfterLine(a + "\n", ReadText(b));
  }

  lemma {:induction false} LineBody(a: string)
    requires forall j :: 0 <= j < |a| ==> a[j] != '\n'
    ensures SingleLine(a + "\n") && EndsLine(a + "\n")
  {
    var l := a + "\n";
    forall j | 0 <= j < |l| - 1 ensures l[j] != '\n' { assert l[j] == a[j]; }
  }

  lemma {:induction false} ReadLineBody(a: string, end: string, b: string)
    requires forall j :: 0 <= j < |a| ==> a[j] != '\r'
    requires ReadText(end + b) == "\n" + ReadText(b)
    ensures ReadText(a + end + b) == (a + "\n") + ReadText(b)
  {
    assert a + end + b == a + (end + b);
    ReadTextPlainPrefix(a, end + b);
  }

  /** A line ended by a lone carriage return is two lines to Python; neither has five fields,
      so the repair drops both. */
  lemma {:induction false} CarriageReturnEndsLine()
    ensures FileLines("1,2,3" + "\r" + "4,5,6" + "\n") == ["1,2,3" + "\n", "4,5,6" + "\n"]
    ensures FixTextCorruption("1,2,3" + "\r" + "4,5,6" + "\n") == ""
  {
    TwoLinesLoneReturn("1,2,3", "4,5,6");
    var ls := ["1,2,3" + "\n", "4,5,6" + "\n"];
    ThreeFieldsDropped(ls[0]);
    ThreeFieldsDropped(ls[1]);
    assert FilterLines(ls) == FilterLines(ls[1..]) == FilterLines([]);
  }

  lemma {:induction false} TwoLinesLoneReturn(a: string, b: string)
    requires forall j :: 0 <= j < |a| ==> a[j] != '\n' && a[j] != '\r'
    requires forall j :: 0 <= j < |b| ==> b[j] != '\n' && b[j] != '\r'
    requires |b| > 0
    ensures FileLines(a + "\r" + b + "\n") == [a + "\n", b + "\n"]
  {
    LineEnds(b, "");
    assert b + "\n" + "" == b + "\n";
    assert FileLines("") == [];
    LineEnds(a, b + "\n");
    assert a + "\r" + b + "\n" == a + "\r" + (b + "\n");
  }

  lemma {:induction false} ThreeFieldsDropped(l: string)
    requires |l| == 6 && l[1] == ',' && l[3] == ','
    requires l[0] != ',' && l[2] != ',' && l[4] != ',' && l[5] != ','
    ensures !KeepLine(l)
  {
    assert CommaCount(l[5..]) == 0;
    assert CommaCount(l[4..]) == 0;
    assert CommaCount(l[3..]) == 1;
    assert CommaCount(l[2..]) == 1;
    assert CommaCount(l[1..]) == 2;
  }

  // ---------------------------------------------------------------- counting

  /** line_count in utils/file.py: the number of newline bytes in the file. */
  function NewlineCount(c: string): nat
    decreases |c|
  {
    if |c| == 0 then 0 else (if c[0] == '\n' then 1 else 0) + NewlineCount(c[1..])
  }

  lemma {:induction false} NewlineCountAppend(a: string, b: string)
    ensures NewlineCount(a + b) == NewlineCount(a) + NewlineCount(b)
    decreases |a|
  {
    if |a| == 0 {
      assert a + b == b;
    } else {
      assert (a + b)[1..] == a[1..] + b;
      NewlineCountAppend(a[1..], b);
    }
  }

  lemma {:induction false} NewlineCountOfLine(l: string)
    requires SingleLine(l)
    ensures NewlineCount(l) == if EndsLine(l) then 1 else 0
    decreases |l|
  {
    if |l| > 1 {
      assert SingleLine(l[1..]) by {
        forall j | 0 <= j < |l[1..]| - 1 ensures l[1..][j] != '\n' { assert l[1..][j] == l[j + 1]; }
      }
      assert EndsLine(l[1..]) == EndsLine(l);
      NewlineCountOfLine(l[1..]);
    }
  }

  /** The newline count (utils/file.py) and the iterated line count (energy_monitor.py's
      line_count): for a file without carriage returns they agree exactly when the file is
      empty or ends in a newline, the unterminated last line being counted only by iteration.
      A carriage return ends a line for iteration but is no newline byte, so in general the
      byte count can only fall short of the iterated count. */
  lemma {:induction false} LineCountsAgree(c: string)
    ensures NoCarriageReturn(c) ==> (NewlineCount(c) == |FileLines(c)| <==> (|c| == 0 || c[|c| - 1] == '\n'))
    ensures NewlineCount(c) <= |FileLines(c)|
    ensures NoCarriageReturn(c) ==> |FileLines(c)| <= NewlineCount(c) + 1
  {
    NewlinesAndLines(c);
    NewlinesAndLines(ReadText(c));
    ReadTextNewlines(c);
  }

  /** Translating line ends never removes a newline. */
  lemma {:induction false} ReadTextNewlines(c: string)
    ensures NewlineCount(c) <= NewlineCount(ReadText(c))
    decreases |c|
  {
    if |c| > 0 {
      var t := ReadText(c);
      if c[0] == '\r' {
        var skip := if |c| > 1 && c[1] == '\n' then 2 else 1;
        ReadTextNewlines(c[skip..]);
        assert t == "\n" + ReadText(c[skip..]);
        assert t[1..] == ReadText(c[skip..]);
        if skip == 2 { assert c[1..][1..] == c[2..]; }
      } else {
        ReadTextNewlines(c[1..]);
        assert t == [c[0]] + ReadText(c[1..]);
        assert t[1..] == ReadText(c[1..]);
      }
    }
  }

  /** The same comparison on a text split at "\n" alone. */
  lemma {:induction false} NewlinesAndLines(c: string)
    ensures NewlineCount(c) == |Lines(c)| <==> (|c| == 0 || c[|c| - 1] == '\n')
    ensures NewlineCount(c) <= |Lines(c)| <= NewlineCount(c) + 1
    decreases |c|
  {
    if |c| > 0 {
      var n := NewlineIndex(c);
      if n < |c| {
        var l, rest := c[..n + 1], c[n + 1..];
        assert c == l + rest;
        NewlineCountAppend(l, rest);
        assert SingleLine(l) && EndsLine(l);
        NewlineCountOfLine(l);
        NewlinesAndLines(rest);
        if |rest| > 0 { assert c[|c| - 1] == rest[|rest| - 1]; }
      } else {
        assert SingleLine(c);
        NewlineCountOfLine(c);
      }
    }
  }

  /** has_readings in utils/file.py: the file is not empty. */
  function HasReadings(c: string): (b: bool)
    ensures b <==> |FileLines(c)| > 0
  {
    |c| != 0
  }

  /** is_first_input_to_csv: iterating the file yields at most two lines. */
  function IsFirstInputToCsv(c: string): bool {
    |FileLines(c)| <= 2
  }

  /** has_readings in energy_monitor.py: iterating the file yields more than two lines. */
  function HasReadingsLegacy(c: string): (b: bool)
    ensures b <==> !IsFirstInputToCsv(c)
  {
    |FileLines(c)| > 2
  }

  // ---------------------------------------------------------------- corruption repair

  /** A line survives the repair iff it splits into exactly five fields and is ASCII. */
  predicate KeepLine(l: string) {
    FieldCount(l) == 5 && IsAscii(l)
  }

  function FilterLines(ls: seq<string>): (kept: seq<string>)
    ensures forall i :: 0 <= i < |kept| ==> KeepLine(kept[i])
    decreases |ls|
  {
    if |ls| == 0 then []
    else (if KeepLine(ls[0]) then [ls[0]] else []) + FilterLines(ls[1..])
  }

  /** a is b with some elements removed, order kept. */
  predicate IsSubsequence<T(==)>(a: seq<T>, b: seq<T>)
    decreases |b|
  {
    |a| == 0 || (|b| > 0 && ((a[0] == b[0] && IsSubsequence(a[1..], b[1..])) || IsSubsequence(a, b[1..])))
  }

  lemma {:induction false} FilterLinesSpec(ls: seq<string>)
    ensures IsSubsequence(FilterLines(ls), ls)
    ensures forall i :: 0 <= i < |ls| && KeepLine(ls[i]) ==> ls[i] in FilterLines(ls)
    ensures forall l :: l in FilterLines(ls) ==> l in ls
    ensures forall l :: multiset(FilterLines(ls))[l] == if KeepLine(l) then multiset(ls)[l] else 0
  {
    FilterLinesCounts(ls);
    FilterLinesSubsequence(ls);
    var kept := FilterLines(ls);
    forall i | 0 <= i < |ls| && KeepLine(ls[i]) ensures ls[i] in kept {
      assert ls[i] in multiset(ls);
      assert multiset(kept)[ls[i]] > 0;
    }
    forall l | l in kept ensures l in ls {
      assert l in multiset(kept);
      assert multiset(ls)[l] > 0;
    }
  }

  lemma {:induction false} FilterLinesSubsequence(ls: seq<string>)
    ensures IsSubsequence(FilterLines(ls), ls)
    decreases |ls|
  {
    if |ls| > 0 {
      FilterLinesSubsequence(ls[1..]);
      var kept := FilterLines(ls);
      var rest := FilterLines(ls[1..]);
      if KeepLine(ls[0]) {
        assert kept == [ls[0]] + rest && kept[1..] == rest;
      } else {
        assert kept == rest;
      }
    }
  }

  /** Each line is kept as many times as it occurs when it passes, and never otherwise. */
  lemma {:induction false} FilterLinesCounts(ls: seq<string>)
    ensures forall l :: multiset(FilterLines(ls))[l] == if KeepLine(l) then multiset(ls)[l] else 0
    decreases |ls|
  {
    if |ls| > 0 {
      FilterLinesCounts(ls[1..]);
      var head := if KeepLine(ls[0]) then [ls[0]] else [];
      assert FilterLines(ls) == head + FilterLines(ls[1..]);
      assert multiset(FilterLines(ls)) == multiset(head) + multiset(FilterLines(ls[1..]));
      assert ls == [ls[0]] + ls[1..];
      assert multiset(ls) == multiset([ls[0]]) + multiset(ls[1..]);
    }
  }

  lemma {:induction false} FilterLinesIdempotent(ls: seq<string>)
    ensures FilterLines(FilterLines(ls)) == FilterLines(ls)
    decreases |ls|
  {
    if |ls| > 0 {
      FilterLinesIdempotent(ls[1..]);
      var rest := FilterLines(ls[1..]);
      if KeepLine(ls[0]) {
        assert FilterLines(ls) == [ls[0]] + rest;
        assert ([ls[0]] + rest)[1..] == rest;
      } else {
        assert FilterLines(ls) == rest;
      }
    }
  }

  lemma {:induction false} FilterKeepsWellFormed(ls: seq<string>)
    requires WellFormedLines(ls)
    ensures WellFormedLines(FilterLines(ls))
    decreases |ls|
  {
    if |ls| > 0 {
      WellFormedTail(ls);
      FilterKeepsWellFormed(ls[1..]);
      var rest := FilterLines(ls[1..]);
      if KeepLine(ls[0]) {
        if |rest| > 0 {
          FilterLinesSpec(ls[1..]);
          assert rest[0] in ls[1..];
          assert |ls| > 1;
          WellFormedCons(ls[0], rest);
        } else {
          assert [ls[0]] + rest == [ls[0]];
        }
      }
    }
  }

  /** fix_text_corruption: rewrite the file with only the iterated lines that pass KeepLine. */
  function FixTextCorruption(c: string): string {
    Concat(FilterLines(FileLines(c)))
  }

  /** The repaired text has no carriage return and iterates as the kept lines. */
  lemma {:induction false} RepairedText(c: string)
    ensures NoCarriageReturn(FixTextCorruption(c))
    ensures FileLines(FixTextCorruption(c)) == FilterLines(FileLines(c))
  {
    var ls := FileLines(c);
    FileLinesRoundTrip(c);
    FilterLinesSpec(ls);
    forall i | 0 <= i < |FilterLines(ls)| ensures NoCarriageReturn(FilterLines(ls)[i]) {
      assert FilterLines(ls)[i] in ls;
    }
    ConcatKeepsNoCarriageReturn(FilterLines(ls));
    FilterKeepsWellFormed(ls);
    ConcatLines(FilterLines(ls));
  }

  /** Repairing a repaired file changes nothing. */
  lemma {:induction false} FixTextCorruptionIdempotent(c: string)
    ensures FixTextCorruption(FixTextCorruption(c)) == FixTextCorruption(c)
  {
    RepairedText(c);
    FilterLinesIdempotent(FileLines(c));
  }

  /** The repaired file's lines are the original's five-field ASCII lines, in order. */
  lemma {:induction false} FixTextCorruptionLines(c: string)
    ensures FileLines(FixTextCorruption(c)) == FilterLines(FileLines(c))
    ensures IsSubsequence(FileLines(FixTextCorruption(c)), FileLines(c))
    ensures forall l :: l in FileLines(c) && KeepLine(l) ==> l in FileLines(FixTextCorruption(c))
    ensures forall l :: l in FileLines(FixTextCorruption(c)) ==> KeepLine(l)
  {
    RepairedText(c);
    FilterLinesSpec(FileLines(c));
  }

  /** fix_data_corruption_of_latest_two_files, given the directory's files already sorted
      newest first: the first min(2, n) are repaired, the rest are left as they are. */
  function FixLatestTwo(files: seq<string>): (r: seq<string>)
    ensures |r| == |files|
    ensures forall i :: 0 <= i < |files| && i < 2 ==> r[i] == FixTextCorruption(files[i])
    ensures forall i :: 2 <= i < |files| ==> r[i] == files[i]
  {
    seq(|files|, i requires 0 <= i < |files| => if i < 2 then FixTextCorruption(files[i]) else files[i])
  }

  /** Running the repair of the two newest files a second time changes nothing. */
  lemma {:induction false} FixLatestTwoIdempotent(files: seq<string>)
    ensures FixLatestTwo(FixLatestTwo(files)) == FixLatestTwo(files)
  {
    var once := FixLatestTwo(files);
    var twice := FixLatestTwo(once);
    forall i | 0 <= i < |files| ensures twice[i] == once[i] {
      if i < 2 { FixTextCorruptionIdempotent(files[i]); }
    }
  }

  // ---------------------------------------------------------------- written logs

  /** Lines as the monitor writes them: one newline, at the end, and each passes the repair filter. */
  predicate WrittenLines(ls: seq<string>) {
    forall i :: 0 <= i < |ls| ==> SingleLine(ls[i]) && EndsLine(ls[i]) && KeepLine(ls[i]) && NoCarriageReturn(ls[i])
  }

  lemma {:induction false} WrittenLinesSurvive(ls: seq<string>)
    requires WrittenLines(ls)
    ensures WellFormedLines(ls)
    ensures Lines(Concat(ls)) == ls
    ensures FilterLines(ls) == ls
    ensures NewlineCount(Concat(ls)) == |ls|
    ensures NoCarriageReturn(Concat(ls))
    decreases |ls|
  {
    ConcatKeepsNoCarriageReturn(ls);
    if |ls| > 0 {
      assert WrittenLines(ls[1..]) by {
        forall i | 0 <= i < |ls| - 1 ensures ls[1..][i] == ls[i + 1] { }
      }
      WrittenLinesSurvive(ls[1..]);
      WellFormedCons(ls[0], ls[1..]);
      assert [ls[0]] + ls[1..] == ls;
      ConcatLines(ls);
      assert Concat(ls) == ls[0] + Concat(ls[1..]);
      NewlineCountAppend(ls[0], Concat(ls[1..]));
      NewlineCountOfLine(ls[0]);
    }
  }

  lemma {:induction false} RecordLineIsWritten(r: Record)
    ensures SingleLine(RecordLine(r)) && EndsLine(RecordLine(r)) && KeepLine(RecordLine(r))
    ensures NoCarriageReturn(RecordLine(r))
  {
    RecordLineShape(r);
  }

  function RecordLines(rs: seq<Record>): (ls: seq<string>)
    ensures WrittenLines(ls)
  {
    var ls := seq(|rs|, i requires 0 <= i < |rs| => RecordLine(rs[i]));
    assert WrittenLines(ls) by {
      forall i | 0 <= i < |rs| ensures SingleLine(ls[i]) && EndsLine(ls[i]) && KeepLine(ls[i]) && NoCarriageReturn(ls[i]) {
        RecordLineIsWritten(rs[i]);
      }
    }
    ls
  }

  /** The text of a day file holding the given records, one line each. */
  function LogText(rs: seq<Record>): string {
    Concat(RecordLines(rs))
  }

  /** A day file written record by record iterates back as exactly those lines, so its line
      count is its record count under both counters, and is_first_input_to_csv holds iff it
      has at most two records. */
  lemma {:induction false} LogTextLines(rs: seq<Record>)
    ensures FileLines(LogText(rs)) == RecordLines(rs)
    ensures |FileLines(LogText(rs))| == |rs| == NewlineCount(LogText(rs))
    ensures IsFirstInputToCsv(LogText(rs)) <==> |rs| <= 2
  {
    WrittenLinesSurvive(RecordLines(rs));
  }

  /** The start-up repair never drops a line the monitor wrote. */
  lemma {:induction false} RepairKeepsWrittenLog(rs: seq<Record>)
    ensures FixTextCorruption(LogText(rs)) == LogText(rs)
  {
    WrittenLinesSurvive(RecordLines(rs));
  }
}

=== FILE: monitor.dfy ===
/** One iteration of the pulse monitor loop (utils/monitor.py, and the older copy in
    energy_monitor.py) as a pure transition over the monitor's history and a directory
    of day logs. */
module Monitor {
  import opened Numbers
  import opened Clock
  import opened Records

  /** The tunables the loop reads from its configuration. */
  datatype Config = Config(
    minLuxDifference: real,     // a reading this close to the previous one is ignored
    smoothingMultiplier: real,  // a gap this many times the previous one is smoothed
    smoothingLimit: int,        // at most this many smoothings in a row
    checkYesterdayExists: bool) // only stitch into yesterday's file when it exists

  /** The constants hard-wired into energy_monitor.py's monitor: a 1e-2 lux difference, a 1.7
      multiplier, `fix_counter <= 2` (that is, fewer than 3 in a row), and the stitch guarded
      by an existence check on yesterday's file. */
  const LegacyConfig := Config(0.01, 1.7, 3, true)

  datatype State = State(
    previousLux: real,
    previousPreviousTime: real,
    previousTime: real,
    previousOrigin: Origin,
    currentTime: real,
    fixCounter: int)

  /** The history both loops start from: no remembered lux, the three times unset (-1), the
      previous origin "fixed" and no smoothing so far. */
  const Initial := State(0.0, -1.0, -1.0, Fixed, -1.0, 0)

  /** One sensor reading, with the wall-clock time it was taken and the calendar day the
      program believes is today (the slot stamp takes its date from today, not from the
      reading's own time). */
  datatype Reading = Reading(lux: real, now: real, today: int)

  /** The log directory: day number to the records of that day's file, oldest first. */
  type Logs = map<int, seq<Record>>

  function Existing(logs: Logs, day: int): seq<Record> {
    if day in logs then logs[day] else []
  }

  /** Opening a day file for append and writing one record: the file is created if missing. */
  function Append(logs: Logs, day: int, r: Record): (out: Logs)
    ensures day in out && out[day] == Existing(logs, day) + [r]
    ensures forall d :: d != day ==> Existing(out, d) == Existing(logs, d) && (d in out <==> d in logs)
  {
    logs[day := Existing(logs, day) + [r]]
  }

  /** Nothing already on disk is rewritten: every file keeps its old lines as a prefix. */
  ghost predicate AppendOnly(before: Logs, after: Logs) {
    forall d :: d in before ==> d in after && before[d] <= after[d]
  }

  lemma {:induction false} AppendOnlyTransitive(a: Logs, b: Logs, c: Logs)
    requires AppendOnly(a, b) && AppendOnly(b, c)
    ensures AppendOnly(a, c)
  {
  }

  lemma {:induction false} AppendIsAppendOnly(logs: Logs, day: int, r: Record)
    ensures AppendOnly(logs, Append(logs, day, r))
  {
    forall d | d in logs ensures d in Append(logs, day, r) && logs[d] <= Append(logs, day, r)[d] {
      if d != day { assert Existing(logs, d) == logs[d]; }
    }
  }

  /** The record the monitor writes for a pulse: its lux, its time, the slot stamp dated today. */
  function PulseRecord(lux: real, time: real, today: int, origin: Origin): (r: Record)
    ensures r.stamp.day == today && r.epoch == time
    ensures SlotStart(r.stamp.slot) <= MinuteOfDay(time) < SlotStart(r.stamp.slot) + 30
  {
    Record(lux, time, UnitDatetime(time, today), origin)
  }

  /** The record of the previous pulse, as written at the head of a new day file. */
  function PreviousRecord(s: State, today: int): Record {
    PulseRecord(s.previousLux, s.previousTime, today, s.previousOrigin)
  }

  // ---------------------------------------------------------------- the step

  predicate Quiet(config: Config, s: State, reading: Reading) {
    reading.lux <= 0.0 || Abs(s.previousLux - reading.lux) < config.minLuxDifference
  }

  /** An accepted pulse moves the time history along by one. */
  function Shift(s: State, now: real): (t: State)
    ensures t.previousPreviousTime == s.previousTime && t.previousTime == s.currentTime
    ensures t.currentTime == now && t.previousOrigin == Original
    ensures t.previousLux == s.previousLux && t.fixCounter == s.fixCounter
  {
    s.(previousPreviousTime := s.previousTime, previousTime := s.currentTime,
       previousOrigin := Original, currentTime := now)
  }

  function CurrentInterval(t: State): real { t.currentTime - t.previousTime }
  function PreviousInterval(t: State): real { t.previousTime - t.previousPreviousTime }

  predicate HasHistory(t: State) {
    t.previousPreviousTime > 0.0 && t.previousTime > 0.0
  }

  predicate Fires(config: Config, t: State) {
    && HasHistory(t)
    && CurrentInterval(t) > PreviousInterval(t) * config.smoothingMultiplier
    && t.fixCounter < config.smoothingLimit
  }

  /** What the smoothing check decides for the shifted history t. */
  datatype Decision = NoHistory | Steady | Smooth(segments: int) | DivisionByZero

  function Decide(config: Config, t: State): (d: Decision)
    ensures d.NoHistory? <==> !HasHistory(t)
    ensures (d.Smooth? || d.DivisionByZero?) <==> Fires(config, t)
    ensures d.DivisionByZero? <==> Fires(config, t) && PreviousInterval(t) == 0.0
    ensures d.Smooth? ==>
      && PreviousInterval(t) != 0.0
      && Abs(d.segments as real - CurrentInterval(t) / PreviousInterval(t)) <= 0.5
      && (Abs(d.segments as real - CurrentInterval(t) / PreviousInterval(t)) == 0.5 ==> d.segments % 2 == 0)
  {
    if !HasHistory(t) then NoHistory
    else if !Fires(config, t) then Steady
    else if PreviousInterval(t) == 0.0 then DivisionByZero
    else Smooth(RoundHalfEven(CurrentInterval(t) / PreviousInterval(t)))
  }

  datatype Pulse = Pulse(lux: real, time: real)

  /** The interpolated pulses that fill a gap of `segments` previous intervals: one fewer than
      the number of segments, lux stepping up by one from the midpoint of the two readings. */
  function FixedPulses(lux: real, now: real, previousLux: real, previousTime: real, segments: int): (ps: seq<Pulse>)
    ensures |ps| == Max(0, segments - 1)
    ensures forall i :: 0 <= i < |ps| ==> ps[i].lux == (lux + previousLux) / 2.0 + i as real
    ensures |ps| > 0 ==> ps[0].time - previousTime == (now - previousTime) / (segments as real)
    ensures forall i :: 0 <= i < |ps| - 1 ==> ps[i + 1].time - ps[i].time == (now - previousTime) / (segments as real)
  {
    var count := Max(0, segments - 1);
    seq(count, i requires 0 <= i < count =>
      Pulse((lux + previousLux) / 2.0 + i as real, GapPoint(previousTime, now, segments, i + 1)))
  }

  /** The k-th of the points that cut [from, to] into `segments` equal parts. */
  function GapPoint(from: real, to: real, segments: int, k: int): real
    requires segments != 0
  {
    from + (to - from) / (segments as real) * (k as real)
  }

  /** Write one synthesized pulse: seed a new day file with the previous pulse, append the
      pulse, and copy it into the day before when its file is still at most two lines long. */
  function WriteFixed(s: State, logs: Logs, p: Pulse, today: int): (out: (State, Logs))
    ensures out.0 == s.(previousPreviousTime := s.previousTime, previousLux := p.lux,
                         previousTime := p.time, previousOrigin := Fixed)
    ensures AppendOnly(logs, out.1)
  {
    var day := DayOf(p.time);
    var r := PulseRecord(p.lux, p.time, today, Fixed);
    var seeded := if day in logs then logs else Append(logs, day, PreviousRecord(s, today));
    var written := Append(seeded, day, r);
    var stitched := if |written[day]| <= 2 then Append(written, day - 1, r) else written;
    AppendIsAppendOnly(logs, day, PreviousRecord(s, today));
    AppendIsAppendOnly(seeded, day, r);
    AppendIsAppendOnly(written, day - 1, r);
    (s.(previousPreviousTime := s.previousTime, previousLux := p.lux, previousTime := p.time,
        previousOrigin := Fixed), stitched)
  }

  function WriteFixedPulses(s: State, logs: Logs, ps: seq<Pulse>, today: int): (out: (State, Logs))
    ensures AppendOnly(logs, out.1)
    ensures out.0.currentTime == s.currentTime && out.0.fixCounter == s.fixCounter
    ensures |ps| == 0 ==> out.0 == s
    ensures |ps| > 0 ==>
      (out.0.previousTime == ps[|ps| - 1].time && out.0.previousLux == ps[|ps| - 1].lux && out.0.previousOrigin == Fixed)
    ensures |ps| > 1 ==> out.0.previousPreviousTime == ps[|ps| - 2].time
    ensures |ps| == 1 ==> out.0.previousPreviousTime == s.previousTime
    decreases |ps|
  {
    if |ps| == 0 then (s, logs)
    else
      var next := WriteFixed(s, logs, ps[0], today);
      var rest := WriteFixedPulses(next.0, next.1, ps[1..], today);
      AppendOnlyTransitive(logs, next.1, rest.1);
      rest
  }

  /** Write the accepted pulse itself. */
  function WriteCurrent(config: Config, s: State, logs: Logs, reading: Reading): (out: Logs)
    ensures AppendOnly(logs, out)
  {
    var day := DayOf(reading.now);
    var r := PulseRecord(reading.lux, reading.now, reading.today, Original);
    var seeded := if HasHistory(s) && day !in logs then Append(logs, day, PreviousRecord(s, reading.today)) else logs;
    var written := Append(seeded, day, r);
    var stitch := |written[day]| <= 2 && s.previousTime > 0.0
      && (!config.checkYesterdayExists || day - 1 in written);
    var stitched := if stitch then Append(written, day - 1, r) else written;
    AppendIsAppendOnly(logs, day, PreviousRecord(s, reading.today));
    AppendIsAppendOnly(seeded, day, r);
    AppendIsAppendOnly(written, day - 1, r);
    stitched
  }

  datatype Status = Ignored | Logged | Faulted

  datatype Outcome = Outcome(state: State, logs: Logs, status: Status)

  /** One pass of the monitor loop. A division by zero in the smoothing (a zero previous
      interval) is caught by the loop's exception handler: the shifted history and the
      incremented counter stay, nothing is written and the lux is not remembered. */
  function Step(config: Config, s: State, logs: Logs, reading: Reading): (o: Outcome)
    ensures AppendOnly(logs, o.logs)
    ensures o.status == Ignored <==> Quiet(config, s, reading)
  {
    if Quiet(config, s, reading) then Outcome(s, logs, Ignored)
    else
      var t := Shift(s, reading.now);
      match Decide(config, t)
      case NoHistory =>
        Outcome(t.(previousLux := reading.lux), WriteCurrent(config, t, logs, reading), Logged)
      case Steady =>
        var t' := t.(fixCounter := 0);
        Outcome(t'.(previousLux := reading.lux), WriteCurrent(config, t', logs, reading), Logged)
      case DivisionByZero =>
        Outcome(t.(fixCounter := t.fixCounter + 1), logs, Faulted)
      case Smooth(n) =>
        var t' := t.(fixCounter := t.fixCounter + 1);
        var ps := FixedPulses(reading.lux, reading.now, t'.previousLux, t'.previousTime, n);
        var filled := WriteFixedPulses(t', logs, ps, reading.today);
        AppendOnlyTransitive(logs, filled.1, WriteCurrent(config, filled.0, filled.1, reading));
        Outcome(filled.0.(previousLux := reading.lux), WriteCurrent(config, filled.0, filled.1, reading), Logged)
  }

  // ---------------------------------------------------------------- properties

  /** A dark reading, or one too close to the last remembered lux, writes nothing and leaves
      the whole state as it was. */
  lemma {:induction false} QuietReadingChangesNothing(config: Config, s: State, logs: Logs, reading: Reading)
    requires Quiet(config, s, reading)
    ensures Step(config, s, logs, reading) == Outcome(s, logs, Ignored)
  {
  }

  /** An accepted pulse shifts the history. When no pulse was synthesized the previous time is
      the old current time, the one before it the old previous time, and the previous origin is
      "original"; otherwise the history ends at the last synthesized pulse, marked "fixed". */
  lemma {:induction false} AcceptedPulseShiftsHistory(config: Config, s: State, logs: Logs, reading: Reading)
    requires !Quiet(config, s, reading)
    ensures var o := Step(config, s, logs, reading);
      && o.state.currentTime == reading.now
      && (o.status == Logged ==> o.state.previousLux == reading.lux)
      && (o.status == Faulted ==> o.state.previousLux == s.previousLux)
      && var d := Decide(config, Shift(s, reading.now));
      if d.Smooth? && d.segments > 1 then
        && o.state.previousOrigin == Fixed
        && o.state.previousTime == FixedPulses(reading.lux, reading.now, s.previousLux, s.currentTime, d.segments)[d.segments - 2].time
      else
        && o.state.previousPreviousTime == s.previousTime
        && o.state.previousTime == s.currentTime
        && o.state.previousOrigin == Original
  {
    var t := Shift(s, reading.now);
    match Decide(config, t)
    case Smooth(n) =>
      var t' := t.(fixCounter := t.fixCounter + 1);
      var ps := FixedPulses(reading.lux, reading.now, t'.previousLux, t'.previousTime, n);
      assert |ps| == Max(0, n - 1);
    case _ =>
  }

  /** The smoothing counter goes up by one exactly when smoothing fires (whether or not the
      division then fails), drops to 0 when the history exists but smoothing does not fire, and
      is left alone without history or on an ignored reading. */
  lemma {:induction false} FixCounterRule(config: Config, s: State, logs: Logs, reading: Reading)
    ensures var o := Step(config, s, logs, reading);
      var t := Shift(s, reading.now);
      o.state.fixCounter ==
        if Quiet(config, s, reading) || !HasHistory(t) then s.fixCounter
        else if Fires(config, t) then s.fixCounter + 1
        else 0
  {
  }

  predicate CounterInRange(config: Config, s: State) {
    0 <= s.fixCounter <= Max(0, config.smoothingLimit)
  }

  /** The counter never passes the smoothing limit: no more than that many smoothings in a row. */
  lemma {:induction false} FixCounterBounded(config: Config, s: State, logs: Logs, reading: Reading)
    requires CounterInRange(config, s)
    ensures CounterInRange(config, Step(config, s, logs, reading).state)
  {
    FixCounterRule(config, s, logs, reading);
  }

  lemma {:induction false} InitialCounterInRange(config: Config)
    ensures CounterInRange(config, Initial)
  {
  }

  /** From the start, the first reading bright enough to pass the debounce is logged: it is
      written to its own day's file and nowhere else (no history, so no seed, no smoothing and
      no copy into the day before), and it becomes the current time and the remembered lux. */
  lemma {:induction false} FirstBrightReading(config: Config, logs: Logs, reading: Reading)
    requires !Quiet(config, Initial, reading)
    ensures var o := Step(config, Initial, logs, reading);
      && o.status == Logged
      && o.logs == Append(logs, DayOf(reading.now), PulseRecord(reading.lux, reading.now, reading.today, Original))
      && o.state == State(reading.lux, -1.0, -1.0, Original, reading.now, 0)
  {
  }

  /** The synthesized pulses split the gap from the previous to the current time into
      `segments` equal steps: strictly increasing, strictly inside the gap, the last one a
      single step before the current time. */
  lemma {:induction false} FixedPulsesFillGap(lux: real, now: real, previousLux: real, previousTime: real, segments: int)
    requires previousTime < now
    ensures var ps := FixedPulses(lux, now, previousLux, previousTime, segments);
      && (forall i :: 0 <= i < |ps| ==> previousTime < ps[i].time < now)
      && (forall i, j :: 0 <= i < j < |ps| ==> ps[i].time < ps[j].time)
      && (|ps| > 0 ==> ps[0].time - previousTime == now - ps[|ps| - 1].time == (now - previousTime) / (segments as real))
  {
    var ps := FixedPulses(lux, now, previousLux, previousTime, segments);
    if |ps| > 0 {
      forall i | 0 <= i < |ps| ensures previousTime < ps[i].time < now {
        GapPointInside(previousTime, now, segments, i + 1);
      }
      forall i, j | 0 <= i < j < |ps| ensures ps[i].time < ps[j].time {
        GapPointIncreasing(previousTime, now, segments, i + 1, j + 1);
      }
      GapPointEnds(previousTime, now, segments);
    }
  }

  lemma {:induction false} GapPointInside(from: real, to: real, segments: int, k: int)
    requires from < to && 0 < k < segments
    ensures from < GapPoint(from, to, segments, k) < to
  {
    var step := (to - from) / (segments as real);
    assert step * (segments as real) == to - from;
    assert step > 0.0;
    StepsInsideGap(step, k, segments);
  }

  lemma {:induction false} GapPointIncreasing(from: real, to: real, segments: int, a: int, b: int)
    requires from < to && 0 < segments && a < b
    ensures GapPoint(from, to, segments, a) < GapPoint(from, to, segments, b)
  {
    var step := (to - from) / (segments as real);
    assert step * (segments as real) == to - from;
    assert step > 0.0;
    StepsIncrease(step, a, b);
  }

  lemma {:induction false} GapPointEnds(from: real, to: real, segments: int)
    requires segments > 1
    ensures GapPoint(from, to, segments, 1) - from == to - GapPoint(from, to, segments, segments - 1)
      == (to - from) / (segments as real)
  {
    var step := (to - from) / (segments as real);
    assert step * (segments as real) == to - from;
    assert step * ((segments - 1) as real) == step * (segments as real) - step;
  }

  lemma {:induction false} StepsInsideGap(step: real, k: int, n: int)
    requires step > 0.0 && 0 < k < n
    ensures 0.0 < step * (k as real) < step * (n as real)
  {
  }

  lemma {:induction false} StepsIncrease(step: real, a: int, b: int)
    requires step > 0.0 && a < b
    ensures step * (a as real) < step * (b as real)
  {
  }

  /** With a positive previous interval and a non-negative multiplier, firing means the
      current time is past the previous one, so the pulses fill a real gap. */
  lemma {:induction false} FiringGapIsForward(config: Config, t: State)
    requires Fires(config, t) && PreviousInterval(t) > 0.0 && config.smoothingMultiplier >= 0.0
    ensures t.previousTime < t.currentTime
  {
  }

  /** What writing the accepted pulse does to the directory: a new day file (with history)
      starts with the previous pulse; the pulse is appended; the same record is copied into
      the previous day's file exactly when today's file has at most two lines, a previous
      time exists and, in the older variant, yesterday's file already exists. */
  lemma {:induction false} CurrentPulseFiles(config: Config, s: State, logs: Logs, reading: Reading)
    ensures var out := WriteCurrent(config, s, logs, reading);
      var day := DayOf(reading.now);
      var r := PulseRecord(reading.lux, reading.now, reading.today, Original);
      var stitch := |out[day]| <= 2 && s.previousTime > 0.0 && (!config.checkYesterdayExists || day - 1 in logs);
      && day in out
      && (HasHistory(s) && day !in logs ==> out[day] == [PreviousRecord(s, reading.today), r])
      && (!HasHistory(s) || day in logs ==> out[day] == Existing(logs, day) + [r])
      && (stitch ==> Existing(out, day - 1) == Existing(logs, day - 1) + [r] && day - 1 in out)
      && (!stitch ==> Existing(out, day - 1) == Existing(logs, day - 1) && (day - 1 in out <==> day - 1 in logs))
      && (forall d :: d != day && d != day - 1 ==> Existing(out, d) == Existing(logs, d) && (d in out <==> d in logs))
  {
  }

  /** What writing one synthesized pulse does: the same seeding, and a stitch into the
      previous day whenever the pulse's file has at most two lines, with no further check. */
  lemma {:induction false} FixedPulseFiles(s: State, logs: Logs, p: Pulse, today: int)
    ensures var out := WriteFixed(s, logs, p, today).1;
      var day := DayOf(p.time);
      var r := PulseRecord(p.lux, p.time, today, Fixed);
      var stitch := |out[day]| <= 2;
      && day in out
      && (day !in logs ==> out[day] == [PreviousRecord(s, today), r])
      && (day in logs ==> out[day] == logs[day] + [r])
      && (stitch ==> Existing(out, day - 1) == Existing(logs, day - 1) + [r] && day - 1 in out)
      && (!stitch ==> Existing(out, day - 1) == Existing(logs, day - 1) && (day - 1 in out <==> day - 1 in logs))
      && (forall d :: d != day && d != day - 1 ==> Existing(out, d) == Existing(logs, d) && (d in out <==> d in logs))
  {
  }

  /** The two variants differ in one place: with no file for yesterday, the newer monitor
      creates it to hold the stitched record, the older one writes nothing there. */
  lemma {:induction false} YesterdayCheckDifference(config: Config, s: State, logs: Logs, reading: Reading)
    requires DayOf(reading.now) - 1 !in logs
    requires |Existing(logs, DayOf(reading.now))| == 0 && s.previousTime > 0.0
    ensures DayOf(reading.now) - 1 in WriteCurrent(config.(checkYesterdayExists := false), s, logs, reading)
    ensures DayOf(reading.now) - 1 !in WriteCurrent(config.(checkYesterdayExists := true), s, logs, reading)
  {
    CurrentPulseFiles(config.(checkYesterdayExists := false), s, logs, reading);
    CurrentPulseFiles(config.(checkYesterdayExists := true), s, logs, reading);
  }

  /** The older loop's `fix_counter <= 2` is the newer loop's `fix_counter < limit` at limit 3. */
  lemma {:induction false} LegacyLimit(t: State)
    ensures Fires(LegacyConfig, t) <==>
      HasHistory(t) && CurrentInterval(t) > PreviousInterval(t) * 1.7 && t.fixCounter <= 2
  {
  }
}

=== FILE: numbers.dfy ===
/** Numeric helpers shared by the monitor and the generator. */
module Numbers {

  function Abs(x: real): (r: real)
    ensures r >= 0.0
    ensures r == x || r == -x
  {
    if x < 0.0 then -x else x
  }

  function Max(a: int, b: int): (r: int)
    ensures r >= a && r >= b
    ensures r == a || r == b
  {
    if a < b then b else a
  }

  function Min(a: int, b: int): (r: int)
    ensures r <= a && r <= b
    ensures r == a || r == b
  {
    if a < b then a else b
  }

  /** Round half to even, as numpy's np.round and Python's built-in round do on floats:
      the nearest integer, and on a tie the even one. */
  function RoundHalfEven(x: real): (n: int)
    ensures x - 0.5 <= n as real <= x + 0.5
    ensures (n as real == x - 0.5 || n as real == x + 0.5) ==> n % 2 == 0
  {
    var f := x.Floor;
    var frac := x - f as real;
    if frac < 0.5 then f
    else if frac > 0.5 then f + 1
    else if f % 2 == 0 then f
    else f + 1
  }
}

=== FILE: records.dfy ===
/** The pulse-log record and the one line write_energy_reading_to_file appends for it:
    five comma-separated fields (lux, epoch time, wall time, slot datetime, origin). */
module Records {
  import opened Text
  import opened Clock

  /** "original" for a sensor edge, "fixed" for a pulse synthesised by gap smoothing,
      "generated" for rows written by the synthetic log generator. */
  datatype Origin = Original | Fixed | Generated

  function OriginText(o: Origin): string {
    match o
    case Original => "original"
    case Fixed => "fixed"
    case Generated => "generated"
  }

  datatype Record = Record(lux: real, epoch: real, stamp: SlotStamp, origin: Origin)

  /** x with `places` decimals, truncated (Python rounds; digits are not claimed bit-exact). */
  function FixedText(x: real, places: nat): string {
    var scaled := (x * Pow10(places) as real).Floor;
    (if scaled < 0 then "-" else "") + DecimalText(if scaled < 0 then -scaled else scaled, places)
  }

  /** m / 10^places, then ".", then the low `places` digits of m. */
  function DecimalText(m: nat, places: nat): string {
    NatText(DropDigits(m, places)) + "." + PaddedText(m, places)
  }

  function DropDigits(m: nat, k: nat): nat
    decreases k
  {
    if k == 0 then m else DropDigits(m / 10, k - 1)
  }

  function Pow10(n: nat): (p: nat)
    ensures p >= 1
  {
    if n == 0 then 1 else 10 * Pow10(n - 1)
  }

  function RecordFields(r: Record): seq<string> {
    [FixedText(r.lux, 2), FixedText(r.epoch, 6), WallText(r.epoch), StampText(r.stamp), OriginText(r.origin)]
  }

  /** The text write_energy_reading_to_file appends for one record, newline included. */
  function RecordLine(r: Record): string {
    JoinFields(RecordFields(r)) + "\n"
  }

  /** Printable ASCII without comma, newline or carriage return: what each written field
      consists of. */
  lemma {:induction false} PlainConcat(a: string, b: string)
    requires PlainField(a) && PlainField(b)
    ensures PlainField(a + b)
  {
    forall i | 0 <= i < |a + b| ensures FieldChar((a + b)[i]) {
      if i >= |a| { assert (a + b)[i] == b[i - |a|]; }
    }
  }

  lemma {:induction false} DigitsArePlain(s: string)
    requires forall i :: 0 <= i < |s| ==> '0' <= s[i] <= '9'
    ensures PlainField(s)
  {
  }

  lemma {:induction false} FixedTextIsPlain(x: real, places: nat)
    ensures PlainField(FixedText(x, places))
  {
    var scaled := (x * Pow10(places) as real).Floor;
    var m: nat := if scaled < 0 then -scaled else scaled;
    var sign := if scaled < 0 then "-" else "";
    DigitsArePlain(NatText(DropDigits(m, places)));
    DigitsArePlain(PaddedText(m, places));
    PlainConcat(NatText(DropDigits(m, places)), ".");
    PlainConcat(NatText(DropDigits(m, places)) + ".", PaddedText(m, places));
    PlainConcat(sign, DecimalText(m, places));
  }

  lemma {:induction false} WallTextIsPlain(t: real)
    ensures PlainField(WallText(t))
  {
    var s := SecondOfDay(t);
    var micro := ((t - t.Floor as real) * 1000000.0).Floor;
    var a, b, c, d := TwoDigits(s / 3600), TwoDigits(s / 60 % 60), TwoDigits(s % 60), PaddedText(micro, 6);
    DigitsArePlain(a); DigitsArePlain(b); DigitsArePlain(c); DigitsArePlain(d);
    PlainConcat(a, ":"); PlainConcat(a + ":", b); PlainConcat(a + ":" + b, ":");
    PlainConcat(a + ":" + b + ":", c); PlainConcat(a + ":" + b + ":" + c, ".");
    PlainConcat(a + ":" + b + ":" + c + ".", d);
  }

  lemma {:induction false} DateTextIsPlain(day: int)
    ensures PlainField(DateText(day))
  {
    var (y, m, d) := Civil(day);
    var yearText := YearText(y);
    if y >= 0 { DigitsArePlain(PaddedText(y, 4)); } else { DigitsArePlain(NatText(-y)); PlainConcat("-", NatText(-y)); }
    var mt, dt := PaddedText(m % 100, 2), PaddedText(d % 100, 2);
    DigitsArePlain(mt); DigitsArePlain(dt);
    PlainConcat(yearText, "-"); PlainConcat(yearText + "-", mt);
    PlainConcat(yearText + "-" + mt, "-"); PlainConcat(yearText + "-" + mt + "-", dt);
  }

  lemma {:induction false} LabelIsPlain(m: Minute)
    ensures PlainField(Label(m))
  {
    var hh, mm := TwoDigits(m / 60), TwoDigits(m % 60);
    DigitsArePlain(hh); DigitsArePlain(mm);
    PlainConcat([':'], mm); PlainConcat(hh, [':'] + mm);
  }

  lemma {:induction false} StampTextIsPlain(u: SlotStamp)
    ensures PlainField(StampText(u))
  {
    DateTextIsPlain(u.day);
    var slotLabel := Label(SlotStart(u.slot));
    LabelIsPlain(SlotStart(u.slot));
    PlainConcat(DateText(u.day), " "); PlainConcat(DateText(u.day) + " ", slotLabel);
    PlainConcat(DateText(u.day) + " " + slotLabel, ":00");
  }

  lemma {:induction false} JoinFieldsShape(fields: seq<string>)
    requires |fields| > 0
    requires forall i :: 0 <= i < |fields| ==> PlainField(fields[i])
    ensures CommaCount(JoinFields(fields)) == |fields| - 1
    ensures forall i :: 0 <= i < |JoinFields(fields)| ==>
      JoinFields(fields)[i] != '\n' && JoinFields(fields)[i] != '\r' && (JoinFields(fields)[i] as int) < 128
    decreases |fields|
  {
    var j := JoinFields(fields);
    if |fields| == 1 {
      PlainFieldHasNoComma(fields[0]);
    } else {
      var rest := JoinFields(fields[1..]);
      JoinFieldsShape(fields[1..]);
      PlainFieldHasNoComma(fields[0]);
      CommaCountAppend(fields[0], ",");
      CommaCountAppend(fields[0] + ",", rest);
      assert CommaCount(",") == 1;
      forall i | 0 <= i < |j| ensures j[i] != '\n' && j[i] != '\r' && (j[i] as int) < 128 {
        if i > |fields[0]| { assert j[i] == rest[i - |fields[0]| - 1]; }
        else if i < |fields[0]| { assert j[i] == fields[0][i]; }
      }
    }
  }

  /** A line made of plain fields has one more field than separators, is ASCII and ends
      in its only newline. */
  lemma {:induction false} PlainLineShape(fields: seq<string>)
    requires |fields| > 0
    requires forall i :: 0 <= i < |fields| ==> PlainField(fields[i])
    ensures var line := JoinFields(fields) + "\n";
      && FieldCount(line) == |fields|
      && IsAscii(line)
      && line[|line| - 1] == '\n'
      && (forall i :: 0 <= i < |line| - 1 ==> line[i] != '\n')
      && NoCarriageReturn(line)
  {
    JoinFieldsShape(fields);
    var j := JoinFields(fields);
    CommaCountAppend(j, "\n");
    assert CommaCount("\n") == 0;
    var line := j + "\n";
    forall i | 0 <= i < |line| ensures (line[i] as int) < 0x80 {
      if i < |j| { assert line[i] == j[i]; }
    }
    forall i | 0 <= i < |line| - 1 ensures line[i] != '\n' {
      assert line[i] == j[i];
    }
    forall i | 0 <= i < |line| ensures line[i] != '\r' {
      if i < |j| { assert line[i] == j[i]; }
    }
  }

  lemma {:induction false} FiveFieldLine(a: string, b: string, c: string, d: string, e: string)
    requires PlainField(a) && PlainField(b) && PlainField(c) && PlainField(d) && PlainField(e)
    ensures var line := JoinFields([a, b, c, d, e]) + "\n";
      && FieldCount(line) == 5
      && IsAscii(line)
      && line[|line| - 1] == '\n'
      && (forall i :: 0 <= i < |line| - 1 ==> line[i] != '\n')
      && NoCarriageReturn(line)
  {
    var fields := [a, b, c, d, e];
    forall i | 0 <= i < |fields| ensures PlainField(fields[i]) {
      if i == 0 {} else if i == 1 {} else if i == 2 {} else if i == 3 {} else {}
    }
    PlainLineShape(fields);
  }

  lemma {:induction false} NumberFieldsArePlain(r: Record)
    ensures PlainField(FixedText(r.lux, 2)) && PlainField(FixedText(r.epoch, 6))
  {
    FixedTextIsPlain(r.lux, 2);
    FixedTextIsPlain(r.epoch, 6);
  }

  lemma {:induction false} TimeFieldsArePlain(r: Record)
    ensures PlainField(WallText(r.epoch)) && PlainField(StampText(r.stamp)) && PlainField(OriginText(r.origin))
  {
    WallTextIsPlain(r.epoch);
    StampTextIsPlain(r.stamp);
    OriginTextIsPlain(r.origin);
  }

  lemma {:induction false} OriginTextIsPlain(o: Origin)
    ensures PlainField(OriginText(o))
  {
    match o
    case Original => LettersArePlain("original");
    case Fixed => LettersArePlain("fixed");
    case Generated => LettersArePlain("generated");
  }

  lemma {:induction false} LettersArePlain(s: string)
    requires forall i :: 0 <= i < |s| ==> 'a' <= s[i] <= 'z'
    ensures PlainField(s)
  {
  }

  /** Every line the monitor writes has exactly five comma-separated fields, is ASCII,
      and is one line: a single newline, at its end, and no carriage return. */
  lemma {:induction false} RecordLineShape(r: Record)
    ensures FieldCount(RecordLine(r)) == 5
    ensures IsAscii(RecordLine(r))
    ensures |RecordLine(r)| > 0 && RecordLine(r)[|RecordLine(r)| - 1] == '\n'
    ensures forall i :: 0 <= i < |RecordLine(r)| - 1 ==> RecordLine(r)[i] != '\n'
    ensures NoCarriageReturn(RecordLine(r))
  {
    NumberFieldsArePlain(r);
    TimeFieldsArePlain(r);
    FiveFieldLine(FixedText(r.lux, 2), FixedText(r.epoch, 6), WallText(r.epoch), StampText(r.stamp), OriginText(r.origin));
  }
}

=== FILE: tariffs.dfy ===
/** Tariff price tables (utils/prices.py): turning the supplier's price intervals into a
    slot-to-price table per tariff, the sorted price file, and where get_energy_prices takes
    its table from. */
module Tariffs {
  import opened Wrappers
  import opened Text
  import opened Clock
  import opened Aggregate

  datatype Tariff = Agile | Go | Tracker | Flexible

  /** The configured tariff name; anything unrecognised is treated as Flexible. */
  function TariffOf(name: string): (t: Tariff)
    ensures t == Agile <==> name == "AGILE"
    ensures t == Go <==> name == "GO"
    ensures t == Tracker <==> name == "TRACKER"
  {
    if name == "AGILE" then Agile
    else if name == "GO" then Go
    else if name == "TRACKER" then Tracker
    else Flexible
  }

  datatype PriceUrls = PriceUrls(agile: string, go: string, tracker: string, flexible: string)

  /** get_energy_price_url: the URL configured for the tariff. */
  function EnergyPriceUrl(urls: PriceUrls, name: string): (url: string)
    ensures TariffOf(name) == Agile ==> url == urls.agile
    ensures TariffOf(name) == Go ==> url == urls.go
    ensures TariffOf(name) == Tracker ==> url == urls.tracker
    ensures TariffOf(name) == Flexible ==> url == urls.flexible
  {
    if name == "AGILE" then urls.agile
    else if name == "GO" then urls.go
    else if name == "TRACKER" then urls.tracker
    else urls.flexible
  }

  /** One price interval from the supplier, its ends in minutes from local midnight of the day
      asked for. */
  datatype ApiPrice = ApiPrice(valid: Span, value: real, directDebit: bool)

  // ---------------------------------------------------------------- per-tariff tables

  /** The local HH:MM of an interval's start, as a time of day. */
  function StartKey(p: ApiPrice): Minute {
    p.valid.start % 1440
  }

  /** Agile: one entry per interval, keyed by its start time of day, later intervals
      overwriting earlier ones with the same key. */
  function AgileTable(prices: seq<ApiPrice>): PriceTable
    decreases |prices|
  {
    if |prices| == 0 then map[]
    else
      var last := prices[|prices| - 1];
      AgileTable(prices[..|prices| - 1])[StartKey(last) := last.value]
  }

  /** Every interval's start has an entry, nothing else does, and an entry holds the price of
      the last interval starting at that time of day. */
  lemma {:induction false} AgileLastWins(prices: seq<ApiPrice>)
    ensures forall k :: k in AgileTable(prices) <==> exists j :: 0 <= j < |prices| && StartKey(prices[j]) == k
    ensures forall j :: 0 <= j < |prices| && (forall j' :: j < j' < |prices| ==> StartKey(prices[j']) != StartKey(prices[j])) ==>
      AgileTable(prices)[StartKey(prices[j])] == prices[j].value
    decreases |prices|
  {
    if |prices| > 0 {
      var init := prices[..|prices| - 1];
      AgileLastWins(init);
      forall j | 0 <= j < |init| ensures init[j] == prices[j] { }
    }
  }

  function Spans(prices: seq<ApiPrice>): (spans: seq<Span>)
    ensures |spans| == |prices| && forall j :: 0 <= j < |prices| ==> spans[j] == prices[j].valid
  {
    seq(|prices|, j requires 0 <= j < |prices| => prices[j].valid)
  }

  /** Go: each half-hour slot takes the price of the first interval covering its start; a slot
      no interval covers gets no entry. */
  function GoTable(prices: seq<ApiPrice>): (t: PriceTable)
    ensures forall m :: m in t ==> m % 30 == 0
    ensures forall i: SlotIndex :: SlotStart(i) in t <==> exists j :: 0 <= j < |prices| && Covers(prices[j].valid, SlotStart(i))
    ensures forall i: SlotIndex, j ::
      (0 <= j < |prices| && Covers(prices[j].valid, SlotStart(i))
       && (forall j' :: 0 <= j' < j ==> !Covers(prices[j'].valid, SlotStart(i)))) ==> t[SlotStart(i)] == prices[j].value
  {
    GoSlotsCovered(prices);
    GoSlotsFirst(prices);
    FirstCoveringMap(prices)
  }

  /** The Go loop's result: slot starts some interval covers, priced by the first of them. */
  function FirstCoveringMap(prices: seq<ApiPrice>): (t: PriceTable)
    ensures forall m :: m in t ==> m % 30 == 0
  {
    var spans := Spans(prices);
    map m: Minute | m % 30 == 0 && FirstCovering(spans, m).Some? :: prices[FirstCovering(spans, m).value].value
  }

  lemma {:induction false} GoSlotsCovered(prices: seq<ApiPrice>)
    ensures forall i: SlotIndex ::
      SlotStart(i) in FirstCoveringMap(prices) <==> exists j :: 0 <= j < |prices| && Covers(prices[j].valid, SlotStart(i))
  {
    var spans := Spans(prices);
    forall i: SlotIndex
      ensures SlotStart(i) in FirstCoveringMap(prices) <==> exists j :: 0 <= j < |prices| && Covers(prices[j].valid, SlotStart(i))
    {
      var f := FirstCovering(spans, SlotStart(i));
      if f.Some? {
        assert Covers(prices[f.value].valid, SlotStart(i));
      } else {
        forall j | 0 <= j < |prices| ensures !Covers(prices[j].valid, SlotStart(i)) {
          assert spans[j] == prices[j].valid;
        }
      }
    }
  }

  lemma {:induction false} GoSlotsFirst(prices: seq<ApiPrice>)
    ensures forall i: SlotIndex, j ::
      (0 <= j < |prices| && Covers(prices[j].valid, SlotStart(i))
       && (forall j' :: 0 <= j' < j ==> !Covers(prices[j'].valid, SlotStart(i)))) ==> FirstCoveringMap(prices)[SlotStart(i)] == prices[j].value
  {
    var spans := Spans(prices);
    var t := FirstCoveringMap(prices);
    forall i: SlotIndex, j | 0 <= j < |prices| && Covers(prices[j].valid, SlotStart(i))
      && (forall j' :: 0 <= j' < j ==> !Covers(prices[j'].valid, SlotStart(i)))
      ensures SlotStart(i) in t && t[SlotStart(i)] == prices[j].value
    {
      assert Covers(spans[j], SlotStart(i));
    }
  }

  /** A table giving every one of the 48 slots the same price. */
  function AllSlots(v: real): (t: PriceTable)
    ensures forall m: Minute :: m in t <==> m % 30 == 0
    ensures forall m :: m in t ==> t[m] == v
  {
    map m: Minute | m % 30 == 0 :: v
  }

  /** The price of the first direct-debit interval, or 0 when there is none. */
  function FirstDirectDebit(prices: seq<ApiPrice>): (v: real)
    ensures (forall j :: 0 <= j < |prices| ==> !prices[j].directDebit) ==> v == 0.0
    ensures forall j ::
      (0 <= j < |prices| && prices[j].directDebit
       && (forall j' :: 0 <= j' < j ==> !prices[j'].directDebit)) ==> v == prices[j].value
    decreases |prices|
  {
    if |prices| == 0 then 0.0
    else if prices[0].directDebit then prices[0].value
    else
      var rest := FirstDirectDebit(prices[1..]);
      assert forall j :: 1 <= j < |prices| ==> prices[j] == prices[1..][j - 1];
      rest
  }

  /** api_prices_to_dict. Agile keeps the last interval per start time, Go takes each slot's
      first covering interval, Tracker takes the first interval's price for every slot and has
      no table at all for an empty interval list (the index fails), and every other tariff name
      gets the first direct-debit price, or 0, for every slot. */
  function ApiPricesToDict(prices: seq<ApiPrice>, tariff: Tariff): (t: Option<PriceTable>)
    ensures t.None? <==> tariff == Tracker && |prices| == 0
    ensures tariff == Tracker && |prices| > 0 ==> t == Some(AllSlots(prices[0].value))
    ensures tariff == Flexible ==> t == Some(AllSlots(FirstDirectDebit(prices)))
    ensures tariff == Agile ==> t == Some(AgileTable(prices))
    ensures tariff == Go ==> t == Some(GoTable(prices))
  {
    match tariff
    case Agile => Some(AgileTable(prices))
    case Go => Some(GoTable(prices))
    case Tracker => if |prices| == 0 then None else Some(AllSlots(prices[0].value))
    case Flexible => Some(AllSlots(FirstDirectDebit(prices)))
  }

  // ---------------------------------------------------------------- the price file

  /** The rows of a small keyed CSV file. */
  datatype CsvRow = Header(columns: seq<string>) | Row(date: string, time: string, value: real)

  /** The keys of a table from time of day `from` on, in increasing order. */
  function KeysFrom(t: PriceTable, from: nat): (keys: seq<Minute>)
    requires from <= 1440
    ensures forall i, j :: 0 <= i < j < |keys| ==> keys[i] < keys[j]
    ensures forall m: Minute :: m in keys <==> m in t && m >= from
    ensures forall i :: 0 <= i < |keys| ==> keys[i] in t && keys[i] >= from
    decreases 1440 - from
  {
    if from == 1440 then []
    else (if from in t then [from] else []) + KeysFrom(t, from + 1)
  }

  function SortedKeys(t: PriceTable): (keys: seq<Minute>)
    ensures forall i, j :: 0 <= i < j < |keys| ==> keys[i] < keys[j]
    ensures forall i :: 0 <= i < |keys| ==> keys[i] in t
  {
    KeysFrom(t, 0)
  }

  /** Every key of the table is among the sorted keys. */
  lemma {:induction false} SortedKeysComplete(t: PriceTable)
    ensures forall m: Minute :: m in SortedKeys(t) <==> m in t
  {
    var keys := KeysFrom(t, 0);
  }

  /** One row per key, in the order given. */
  function PriceRows(t: PriceTable, keys: seq<Minute>, date: string): (rows: seq<CsvRow>)
    requires forall i :: 0 <= i < |keys| ==> keys[i] in t
    ensures |rows| == |keys|
    ensures forall i :: 0 <= i < |keys| ==> rows[i] == Row(date, Label(keys[i]), t[keys[i]])
  {
    seq(|keys|, i requires 0 <= i < |keys| => Row(date, Label(keys[i]), t[keys[i]]))
  }

  /** A file's rows: its header line, then the body. */
  function HeaderThen(h: CsvRow, body: seq<CsvRow>): (rows: seq<CsvRow>)
    ensures |rows| == |body| + 1 && rows[0] == h
    ensures forall i :: 1 <= i < |rows| ==> rows[i] == body[i - 1]
  {
    [h] + body
  }

  /** write_prices_to_csv: the header, then a row per key in sorted key order. */
  function WritePricesCsv(t: PriceTable, date: string): (rows: seq<CsvRow>)
    ensures |rows| == |SortedKeys(t)| + 1 && rows[0] == Header(["Date", "Time", "Price"])
    ensures forall i :: 1 <= i < |rows| ==>
      rows[i] == Row(date, Label(SortedKeys(t)[i - 1]), t[SortedKeys(t)[i - 1]])
  {
    var keys := SortedKeys(t);
    HeaderThen(Header(["Date", "Time", "Price"]), PriceRows(t, keys, date))
  }

  /** The rows after the header are in Python's string order of their time labels. */
  lemma {:induction false} WritePricesCsvSorted(t: PriceTable, date: string)
    ensures var rows := WritePricesCsv(t, date);
      forall i :: 1 <= i < |rows| ==> rows[i].Row? && rows[i].date == date
    ensures var rows := WritePricesCsv(t, date);
      forall i, j :: 1 <= i < j < |rows| ==> LexLess(rows[i].time, rows[j].time)
  {
    var rows := WritePricesCsv(t, date);
    var keys := SortedKeys(t);
    forall i, j | 1 <= i < j < |rows| ensures LexLess(rows[i].time, rows[j].time) {
      LabelOrdered(keys[i - 1], keys[j - 1]);
    }
  }

  /** Every key of the table has a row labelled with its time. */
  lemma {:induction false} WritePricesCsvComplete(t: PriceTable, date: string, m: Minute)
    requires m in t
    ensures var rows := WritePricesCsv(t, date);
      exists i :: 1 <= i < |rows| && rows[i] == Row(date, Label(m), t[m])
  {
    var rows := WritePricesCsv(t, date);
    var keys := SortedKeys(t);
    SortedKeysComplete(t);
    assert m in keys;
    var i :| 0 <= i < |keys| && keys[i] == m;
    assert rows[i + 1] == Row(date, Label(m), t[m]);
  }

  /** A row labelled with a time belongs to a key of the table and carries that key's price. */
  lemma {:induction false} WritePricesCsvSound(t: PriceTable, date: string, m: Minute, i: int)
    requires var rows := WritePricesCsv(t, date);
      1 <= i < |rows| && rows[i].time == Label(m)
    ensures m in t && WritePricesCsv(t, date)[i].value == t[m]
  {
    var keys := SortedKeys(t);
    ParseLabelInverse(m);
    ParseLabelInverse(keys[i - 1]);
  }

  // ---------------------------------------------------------------- reading it back

  predicate DigitChar(c: char) { '0' <= c <= '9' }

  function DigitValue(c: char): int { c as int - '0' as int }

  /** "HH:MM" back to a time of day. */
  function ParseLabel(s: string): Option<Minute> {
    if |s| == 5 && s[2] == ':' && DigitChar(s[0]) && DigitChar(s[1]) && DigitChar(s[3]) && DigitChar(s[4]) then
      var h := DigitValue(s[0]) * 10 + DigitValue(s[1]);
      var m := DigitValue(s[3]) * 10 + DigitValue(s[4]);
      if h < 24 && m < 60 then Some(h * 60 + m) else None
    else None
  }

  lemma {:induction false} TwoDigitsValue(n: int)
    requires 0 <= n < 100
    ensures DigitValue(TwoDigits(n)[0]) * 10 + DigitValue(TwoDigits(n)[1]) == n
  {
  }

  /** Parsing undoes the label. */
  lemma {:induction false} ParseLabelInverse(m: Minute)
    ensures ParseLabel(Label(m)) == Some(m)
  {
    var s := Label(m);
    TwoDigitsValue(m / 60);
    TwoDigitsValue(m % 60);
    assert s[0] == TwoDigits(m / 60)[0] && s[1] == TwoDigits(m / 60)[1];
    assert s[3] == TwoDigits(m % 60)[0] && s[4] == TwoDigits(m % 60)[1];
  }

  /** Only labels parse: a string read as a time of day is that time's label. */
  lemma {:induction false} ParseLabelOnlyLabels(s: string)
    requires ParseLabel(s).Some?
    ensures s == Label(ParseLabel(s).value)
  {
    var m := ParseLabel(s).value;
    var h := DigitValue(s[0]) * 10 + DigitValue(s[1]);
    var mm := DigitValue(s[3]) * 10 + DigitValue(s[4]);
    assert h * 60 + mm == m && mm < 60;
    assert h == m / 60 && mm == m % 60;
    assert s[0] == Digit(h / 10) && s[1] == Digit(h % 10);
    assert s[3] == Digit(mm / 10) && s[4] == Digit(mm % 10);
  }

  /** One row read into the table so far: a data row with a time label sets that time's price,
      anything else is skipped. */
  function ReadRow(table: PriceTable, row: CsvRow): PriceTable {
    match row
    case Header(_) => table
    case Row(_, time, value) =>
      if ParseLabel(time).Some? then table[ParseLabel(time).value := value] else table
  }

  function ReadInto(table: PriceTable, rows: seq<CsvRow>): PriceTable
    decreases |rows|
  {
    if |rows| == 0 then table else ReadInto(ReadRow(table, rows[0]), rows[1..])
  }

  /** convert_price_csv_to_dict over the file's rows: time to price, a later row with the same
      time replacing an earlier one. Only rows whose time is an "HH:MM" label are read; the
      source would also keep any other time string as a key of its own. */
  function ReadPriceCsv(rows: seq<CsvRow>): PriceTable {
    ReadInto(map[], rows)
  }

  /** Reading rows written from a table's keys sets exactly those keys, to the table's prices. */
  lemma {:induction false} ReadKeyedRows(table: PriceTable, rows: seq<CsvRow>, keys: seq<Minute>, t: PriceTable, date: string)
    requires |rows| == |keys|
    requires forall i :: 0 <= i < |keys| ==> keys[i] in t && rows[i] == Row(date, Label(keys[i]), t[keys[i]])
    ensures forall m :: m in ReadInto(table, rows) <==> m in table || m in keys
    ensures forall m :: m in ReadInto(table, rows) ==> ReadInto(table, rows)[m] == if m in keys then t[m] else table[m]
    decreases |rows|
  {
    if |rows| > 0 {
      var m := keys[0];
      ParseLabelInverse(m);
      assert ReadRow(table, rows[0]) == table[m := t[m]];
      ReadKeyedRows(table[m := t[m]], rows[1..], keys[1..], t, date);
      assert keys == [m] + keys[1..];
    }
  }

  lemma {:induction false} HeaderIsSkipped(rows: seq<CsvRow>)
    requires |rows| > 0 && rows[0].Header?
    ensures ReadPriceCsv(rows) == ReadInto(map[], rows[1..])
  {
  }

  /** A file whose rows after the header carry, in order, the labels and prices of keys that
      are exactly the table's keys reads back as that table. */
  lemma {:induction false} ReadKeyedFile(rows: seq<CsvRow>, keys: seq<Minute>, t: PriceTable, date: string)
    requires |rows| == |keys| + 1 && rows[0].Header?
    requires forall i :: 1 <= i < |rows| ==> keys[i - 1] in t && rows[i] == Row(date, Label(keys[i - 1]), t[keys[i - 1]])
    requires forall m: Minute :: m in t <==> m in keys
    ensures ReadPriceCsv(rows) == t
  {
    var body := rows[1..];
    HeaderIsSkipped(rows);
    forall i | 0 <= i < |keys| ensures keys[i] in t && body[i] == Row(date, Label(keys[i]), t[keys[i]]) {
      assert body[i] == rows[i + 1];
    }
    ReadKeyedRows(map[], body, keys, t, date);
    SameKeysSamePrices(ReadInto(map[], body), t, keys);
  }

  /** Reading back the price file gives the table that was written. */
  lemma {:induction false} PriceCsvRoundTrip(t: PriceTable, date: string)
    ensures ReadPriceCsv(WritePricesCsv(t, date)) == t
  {
    SortedKeysComplete(t);
    ReadKeyedFile(WritePricesCsv(t, date), SortedKeys(t), t, date);
  }

  lemma {:induction false} SameKeysSamePrices(r: PriceTable, t: PriceTable, keys: seq<Minute>)
    requires forall m: Minute :: m in t <==> m in keys
    requires forall m :: m in r <==> m in keys
    requires forall m :: m in r ==> r[m] == t[m]
    ensures r == t
  {
  }

  // ---------------------------------------------------------------- where the table comes from

  datatype PriceSource = OfflineFile | CachedFile | Api

  /** The table get_energy_prices settles on, where it came from, and the price file it writes
      when the table came from the supplier. */
  datatype Fetched = Fetched(source: PriceSource, table: PriceTable, written: Option<seq<CsvRow>>)

  /** get_energy_prices with its I/O as inputs: `cached` is the day's price file if it exists,
      `api` the supplier's intervals or None when the request fails, `offline` the configured
      offline file. An empty reply, a failed request or a failed conversion all fall back to
      the offline table. */
  function GetEnergyPrices(offlineMode: bool, cached: Option<PriceTable>, api: Option<seq<ApiPrice>>,
                           tariffName: string, date: string, offline: PriceTable): (f: Fetched)
    ensures offlineMode ==> f == Fetched(OfflineFile, offline, None)
    ensures !offlineMode && cached.Some? && |cached.value| == 48 ==> f == Fetched(CachedFile, cached.value, None)
    ensures !offlineMode && !(cached.Some? && |cached.value| == 48) && (api.None? || |api.value| == 0) ==>
      f == Fetched(OfflineFile, offline, None)
    ensures !offlineMode && !(cached.Some? && |cached.value| == 48) && api.Some? && |api.value| > 0 ==>
      f.source == Api
    ensures f.source == Api ==>
      (api.Some? && Some(f.table) == ApiPricesToDict(api.value, TariffOf(tariffName))
       && f.written == Some(WritePricesCsv(f.table, date)))
  {
    if offlineMode then Fetched(OfflineFile, offline, None)
    else if cached.Some? && |cached.value| == 48 then Fetched(CachedFile, cached.value, None)
    else if api.None? || |api.value| == 0 then Fetched(OfflineFile, offline, None)
    else match ApiPricesToDict(api.value, TariffOf(tariffName))
      case None => Fetched(OfflineFile, offline, None)
      case Some(t) => Fetched(Api, t, Some(WritePricesCsv(t, date)))
  }

  /** A full table fetched from the supplier is cached: the next call reads it back from the
      file it wrote and uses it without asking the supplier again. */
  lemma {:induction false} FetchedTableIsCached(cached: Option<PriceTable>, api: Option<seq<ApiPrice>>, later: Option<seq<ApiPrice>>,
                             tariffName: string, date: string, offline: PriceTable)
    requires var f := GetEnergyPrices(false, cached, api, tariffName, date, offline);
      f.source == Api && |f.table| == 48
    ensures var f := GetEnergyPrices(false, cached, api, tariffName, date, offline);
      GetEnergyPrices(false, Some(ReadPriceCsv(f.written.value)), later, tariffName, date, offline)
        == Fetched(CachedFile, f.table, None)
  {
    var f := GetEnergyPrices(false, cached, api, tariffName, date, offline);
    PriceCsvRoundTrip(f.table, date);
  }
}

=== FILE: text.dfy ===
/** Character-level facts about the text the program writes and reads back:
    decimal digits, comma-separated fields, UTF-8 length and string order. */
module Text {

  // ---------------------------------------------------------------- digits

  function Digit(d: int): (c: char)
    requires 0 <= d < 10
    ensures '0' <= c <= '9'
  {
    ('0' as int + d) as char
  }

  /** Decimal digits of n, without sign or padding (str(n) for n >= 0). */
  function NatText(n: nat): (s: string)
    ensures |s| > 0
    ensures forall i :: 0 <= i < |s| ==> '0' <= s[i] <= '9'
    decreases n
  {
    if n < 10 then [Digit(n)] else NatText(n / 10) + [Digit(n % 10)]
  }

  /** n in exactly `width` digits, keeping the low-order digits ("{:0Nd}" for small n). */
  function PaddedText(n: nat, width: nat): (s: string)
    ensures |s| == width
    ensures forall i :: 0 <= i < |s| ==> '0' <= s[i] <= '9'
    decreases width
  {
    if width == 0 then [] else PaddedText(n / 10, width - 1) + [Digit(n % 10)]
  }

  function TwoDigits(n: int): (s: string)
    requires 0 <= n < 100
    ensures |s| == 2
    ensures '0' <= s[0] <= '9' && '0' <= s[1] <= '9'
  {
    [Digit(n / 10), Digit(n % 10)]
  }

  // ---------------------------------------------------------------- fields

  /** Characters that may appear inside one CSV field of a log line: ASCII, and neither the
      separator nor a line end. */
  predicate FieldChar(c: char) {
    c != ',' && c != '\n' && c != '\r' && (c as int) < 128
  }

  /** No carriage return anywhere: text that Python's text-mode read leaves as it is. */
  predicate NoCarriageReturn(s: string) {
    forall i :: 0 <= i < |s| ==> s[i] != '\r'
  }

  predicate PlainField(s: string) {
    forall i :: 0 <= i < |s| ==> FieldChar(s[i])
  }

  function CommaCount(s: string): nat
    decreases |s|
  {
    if |s| == 0 then 0 else (if s[0] == ',' then 1 else 0) + CommaCount(s[1..])
  }

  /** Fields joined with ",", as "{},{},...".format(...) lays them out. */
  function JoinFields(fields: seq<string>): string
    requires |fields| > 0
    decreases |fields|
  {
    if |fields| == 1 then fields[0] else fields[0] + "," + JoinFields(fields[1..])
  }

  /** s.split(","): the pieces between commas, in order; a text without commas is one piece. */
  function Split(s: string): (parts: seq<string>)
    ensures |parts| == CommaCount(s) + 1
    ensures forall i :: 0 <= i < |parts| ==> ',' !in parts[i]
    decreases |s|
  {
    if |s| == 0 then [""]
    else
      var rest := Split(s[1..]);
      if s[0] == ',' then [""] + rest else [[s[0]] + rest[0]] + rest[1..]
  }

  /** len(s.split(",")): one more piece than there are separators. */
  function FieldCount(s: string): (n: nat)
    ensures n == CommaCount(s) + 1
  {
    |Split(s)|
  }

  /** Joining the pieces of a split with commas gives the text back. */
  lemma {:induction false} JoinSplit(s: string)
    ensures JoinFields(Split(s)) == s
    decreases |s|
  {
    if |s| > 0 {
      var rest := Split(s[1..]);
      JoinSplit(s[1..]);
      if s[0] == ',' {
        var parts := [""] + rest;
        assert parts[1..] == rest;
        assert JoinFields(parts) == "" + "," + JoinFields(rest);
      } else {
        var first := [s[0]] + rest[0];
        var parts := [first] + rest[1..];
        if |rest| == 1 {
          assert JoinFields(parts) == first;
          assert JoinFields(rest) == rest[0];
        } else {
          assert parts[1..] == rest[1..];
          assert JoinFields(parts) == first + "," + JoinFields(rest[1..]);
          assert JoinFields(rest) == rest[0] + "," + JoinFields(rest[1..]);
        }
        assert [s[0]] + s[1..] == s;
      }
    }
  }

  /** Splitting comma-free fields joined with commas gives the fields back. */
  lemma {:induction false} SplitJoin(fields: seq<string>)
    requires |fields| > 0
    requires forall i :: 0 <= i < |fields| ==> ',' !in fields[i]
    ensures Split(JoinFields(fields)) == fields
    decreases |fields|
  {
    var first := fields[0];
    if |fields| == 1 {
      SplitPrefix(first, "");
      assert first + "" == first;
    } else {
      var tail := JoinFields(fields[1..]);
      SplitJoin(fields[1..]);
      SplitPrefix(first, "," + tail);
      assert ("," + tail)[0] == ',' && ("," + tail)[1..] == tail;
      assert Split("," + tail) == [""] + fields[1..];
      assert first + "" == first;
      assert first + "," + tail == first + ("," + tail);
      assert [first] + fields[1..] == fields;
    }
  }

  /** A comma-free prefix joins the first piece of what follows it. */
  lemma {:induction false} SplitPrefix(p: string, t: string)
    requires ',' !in p
    ensures Split(p + t) == [p + Split(t)[0]] + Split(t)[1..]
    decreases |p|
  {
    if |p| > 0 {
      assert (p + t)[0] == p[0];
      assert (p + t)[1..] == p[1..] + t;
      SplitPrefix(p[1..], t);
      assert [p[0]] + (p[1..] + Split(t)[0]) == p + Split(t)[0];
    } else {
      assert p + t == t && p + Split(t)[0] == Split(t)[0];
      assert [Split(t)[0]] + Split(t)[1..] == Split(t);
    }
  }

  lemma {:induction false} CommaCountAppend(a: string, b: string)
    ensures CommaCount(a + b) == CommaCount(a) + CommaCount(b)
    decreases |a|
  {
    if |a| == 0 {
      assert a + b == b;
    } else {
      assert (a + b)[1..] == a[1..] + b;
      CommaCountAppend(a[1..], b);
    }
  }

  lemma {:induction false} PlainFieldHasNoComma(s: string)
    requires PlainField(s)
    ensures CommaCount(s) == 0
    decreases |s|
  {
    if |s| > 0 {
      PlainFieldHasNoComma(s[1..]);
    }
  }

  // ---------------------------------------------------------------- ASCII

  /** Number of bytes the UTF-8 encoding of c takes. */
  function Utf8Width(c: char): nat {
    if (c as int) < 0x80 then 1
    else if (c as int) < 0x800 then 2
    else if (c as int) < 0x10000 then 3
    else 4
  }

  function Utf8Length(s: string): nat
    decreases |s|
  {
    if |s| == 0 then 0 else Utf8Width(s[0]) + Utf8Length(s[1..])
  }

  lemma {:induction false} Utf8LengthBounds(s: string)
    ensures Utf8Length(s) >= |s|
    ensures Utf8Length(s) == |s| <==> forall i :: 0 <= i < |s| ==> (s[i] as int) < 0x80
    decreases |s|
  {
    if |s| > 0 {
      Utf8LengthBounds(s[1..]);
      if Utf8Length(s) == |s| {
        forall i | 0 <= i < |s| ensures (s[i] as int) < 0x80 {
          if i > 0 { assert s[i] == s[1..][i - 1]; }
        }
      }
      if forall i :: 0 <= i < |s| ==> (s[i] as int) < 0x80 {
        forall i | 0 <= i < |s| - 1 ensures (s[1..][i] as int) < 0x80 {
          assert s[1..][i] == s[i + 1];
        }
      }
    }
  }

  /** is_ascii: the UTF-8 encoding is exactly as long as the string (utils/file.py). */
  function IsAscii(s: string): (b: bool)
    ensures b <==> forall i :: 0 <= i < |s| ==> (s[i] as int) < 0x80
  {
    Utf8LengthBounds(s);
    Utf8Length(s) == |s|
  }

  // ---------------------------------------------------------------- order

  /** Python's `<` on str: lexicographic by code point, a proper prefix being smaller. */
  predicate LexLess(a: string, b: string)
    decreases |a|
  {
    |b| > 0 && (|a| == 0 || a[0] < b[0] || (a[0] == b[0] && LexLess(a[1..], b[1..])))
  }

  lemma {:induction false} LexLessIrreflexive(a: string)
    ensures !LexLess(a, a)
    decreases |a|
  {
    if |a| > 0 {
      LexLessIrreflexive(a[1..]);
    }
  }

  lemma {:induction false} LexLessTransitive(a: string, b: string, c: string)
    requires LexLess(a, b) && LexLess(b, c)
    ensures LexLess(a, c)
    decreases |a|
  {
    if |a| > 0 && a[0] == b[0] && b[0] == c[0] {
      LexLessTransitive(a[1..], b[1..], c[1..]);
    }
  }

  /** Two strings of equal length that differ are ordered by their prefix before any suffix. */
  lemma {:induction false} LexLessExtend(a: string, b: string, x: string, y: string)
    requires |a| == |b| && LexLess(a, b)
    ensures LexLess(a + x, b + y)
    decreases |a|
  {
    assert (a + x)[0] == a[0] && (b + y)[0] == b[0];
    if a[0] == b[0] && !(a[0] < b[0]) {
      assert (a + x)[1..] == a[1..] + x;
      assert (b + y)[1..] == b[1..] + y;
      LexLessExtend(a[1..], b[1..], x, y);
    }
  }

  /** A common prefix does not change the order. */
  lemma {:induction false} LexLessCommonPrefix(p: string, x: string, y: string)
    requires LexLess(x, y)
    ensures LexLess(p + x, p + y)
    decreases |p|
  {
    if |p| > 0 {
      assert (p + x)[1..] == p[1..] + x;
      assert (p + y)[1..] == p[1..] + y;
      LexLessCommonPrefix(p[1..], x, y);
    } else {
      assert p + x == x && p + y == y;
    }
  }

  lemma {:induction false} TwoDigitsOrdered(m: int, n: int)
    requires 0 <= m < n < 100
    ensures LexLess(TwoDigits(m), TwoDigits(n))
  {
    var a, b := TwoDigits(m), TwoDigits(n);
    if m / 10 == n / 10 {
      assert a[0] == b[0];
      assert a[1..] == [Digit(m % 10)] && b[1..] == [Digit(n % 10)];
    }
  }
}

=== FILE: windows.dfy ===
/** The trailing five/thirty/sixty-minute figures (energy_monitor.py): the windowed rescan of
    the day log and the backward scan the display loop runs over the newest lines. */
module Windows {
  import opened Wrappers
  import opened Records
  import opened Aggregate

  // ---------------------------------------------------------------- windowed rescan

  /** The rows strictly after time t (`df.loc[df['Epoch Time'] > t]`), order kept. */
  function After(rows: seq<Record>, t: real): (kept: seq<Record>)
    ensures |kept| <= |rows|
    ensures forall j :: 0 <= j < |kept| ==> kept[j].epoch > t
    decreases |rows|
  {
    if |rows| == 0 then []
    else (if rows[0].epoch > t then [rows[0]] else []) + After(rows[1..], t)
  }

  /** Filtering after a later time t2 discards at least what filtering after t1 does: the
      successive filters of the source are the direct ones. */
  lemma {:induction false} AfterNested(rows: seq<Record>, t1: real, t2: real)
    requires t1 <= t2
    ensures After(After(rows, t1), t2) == After(rows, t2)
    decreases |rows|
  {
    if |rows| > 0 {
      AfterNested(rows[1..], t1, t2);
      var tail := After(rows[1..], t1);
      if rows[0].epoch > t1 {
        assert After(rows, t1) == [rows[0]] + tail;
        assert ([rows[0]] + tail)[1..] == tail;
      } else {
        assert After(rows, t1) == tail;
      }
    }
  }

  lemma {:induction false} AfterShrinks(rows: seq<Record>, t1: real, t2: real, day: int)
    requires t1 <= t2
    ensures |After(rows, t2)| <= |After(rows, t1)|
    ensures MatchCount(After(rows, t2), day) <= MatchCount(After(rows, t1), day)
    decreases |rows|
  {
    if |rows| > 0 {
      AfterShrinks(rows[1..], t1, t2, day);
      var a1, a2 := After(rows[1..], t1), After(rows[1..], t2);
      if rows[0].epoch > t2 {
        assert After(rows, t2) == [rows[0]] + a2 && ([rows[0]] + a2)[1..] == a2;
        assert After(rows, t1) == [rows[0]] + a1 && ([rows[0]] + a1)[1..] == a1;
      } else if rows[0].epoch > t1 {
        assert After(rows, t2) == a2;
        assert After(rows, t1) == [rows[0]] + a1 && ([rows[0]] + a1)[1..] == a1;
      } else {
        assert After(rows, t2) == a2 && After(rows, t1) == a1;
      }
    }
  }

  datatype Figures = Figures(cost: real, power: real)

  /** One window's figures: (0, 0) for fewer than two rows, otherwise the full scan's. */
  function WindowFigures(rows: seq<Record>, target: int, prices: PriceTable, onGo: bool): (f: Figures)
    ensures |rows| < 2 ==> f == Figures(0.0, 0.0)
    ensures |rows| >= 2 ==> f.power == MatchCount(rows, target) as real * Multiplier / 1000.0
  {
    var r := CalculateTotalCost(Some(rows), target, prices, onGo);
    Figures(r.0, r.1)
  }

  datatype Trailing = Trailing(five: Figures, thirty: Figures, sixty: Figures)

  const NoFigures := Figures(0.0, 0.0)

  /** calculate_cost_and_power_after_five_thirty_sixty_minutes: filter the day's rows after
      now - 3600, then that after now - 1800, then that after now - 300, and return the figures
      in five, thirty, sixty order; a missing or one-row log gives zeros throughout. */
  function TrailingWindows(now: real, dayLog: Option<seq<Record>>, target: int, prices: PriceTable, onGo: bool): (w: Trailing)
    ensures dayLog.None? || |dayLog.value| < 2 ==> w == Trailing(NoFigures, NoFigures, NoFigures)
    ensures w.five.power <= w.thirty.power <= w.sixty.power
  {
    if dayLog.None? || |dayLog.value| < 2 then Trailing(NoFigures, NoFigures, NoFigures)
    else
      var sixty := After(dayLog.value, now - 3600.0);
      var thirty := After(sixty, now - 1800.0);
      var five := After(thirty, now - 300.0);
      AfterNested(dayLog.value, now - 3600.0, now - 1800.0);
      AfterNested(dayLog.value, now - 1800.0, now - 300.0);
      AfterShrinks(dayLog.value, now - 3600.0, now - 1800.0, target);
      AfterShrinks(dayLog.value, now - 1800.0, now - 300.0, target);
      WindowPowerOrdered(five, thirty, target, prices, onGo);
      WindowPowerOrdered(thirty, sixty, target, prices, onGo);
      Trailing(WindowFigures(five, target, prices, onGo), WindowFigures(thirty, target, prices, onGo),
               WindowFigures(sixty, target, prices, onGo))
  }

  /** A window holding no more rows, and no more of the target date, reports no more power. */
  lemma {:induction false} WindowPowerOrdered(small: seq<Record>, large: seq<Record>, target: int, prices: PriceTable, onGo: bool)
    requires |small| <= |large| && MatchCount(small, target) <= MatchCount(large, target)
    ensures WindowFigures(small, target, prices, onGo).power <= WindowFigures(large, target, prices, onGo).power
  {
    MultiplierScales(MatchCount(small, target), MatchCount(large, target));
  }

  lemma {:induction false} MultiplierScales(a: nat, b: nat)
    requires a <= b
    ensures 0.0 <= a as real * Multiplier / 1000.0 <= b as real * Multiplier / 1000.0
  {
  }

  /** Each window is the direct filter of the day's rows after its own threshold. */
  lemma {:induction false} WindowsAreDirectFilters(now: real, rows: seq<Record>, target: int, prices: PriceTable, onGo: bool)
    requires |rows| >= 2
    ensures var w := TrailingWindows(now, Some(rows), target, prices, onGo);
      && w.sixty == WindowFigures(After(rows, now - 3600.0), target, prices, onGo)
      && w.thirty == WindowFigures(After(rows, now - 1800.0), target, prices, onGo)
      && w.five == WindowFigures(After(rows, now - 300.0), target, prices, onGo)
  {
    AfterNested(rows, now - 3600.0, now - 1800.0);
    AfterNested(rows, now - 1800.0, now - 300.0);
  }

  // ---------------------------------------------------------------- backward scan

  /** A log line as the backward scan sees it: fewer than two comma fields, or a line whose
      second field is the epoch time. */
  datatype LogLine = Short | Stamped(epoch: real)

  datatype Tally = Tally(five: nat, half: nat, hour: nat)

  /** The display loop's scan from the newest line back: each line adds one pulse to every
      window whose threshold it is strictly after; a short line, or a line strictly before the
      hour threshold (after counting it), ends the scan. */
  function ScanBackward(newestFirst: seq<LogLine>, now: real): (a: Tally)
    ensures a.five <= a.half <= a.hour
    decreases |newestFirst|
  {
    if |newestFirst| == 0 then Tally(0, 0, 0)
    else match newestFirst[0]
      case Short => Tally(0, 0, 0)
      case Stamped(t) =>
        if t < now - 3600.0 then Here(t, now)
        else Plus(Here(t, now), ScanBackward(newestFirst[1..], now))
  }

  /** The pulse one line stamped t adds to each window. */
  function Here(t: real, now: real): Tally {
    Tally(if t > now - 300.0 then 1 else 0, if t > now - 1800.0 then 1 else 0,
          if t > now - 3600.0 then 1 else 0)
  }

  function Plus(a: Tally, b: Tally): Tally {
    Tally(a.five + b.five, a.half + b.half, a.hour + b.hour)
  }

  /** What each counted line adds to a window's accumulated power. */
  const PulsePower: real := 0.001 * Multiplier

  /** The power accumulated for a number of counted lines. */
  function ScanPower(pulses: nat): (p: real)
    ensures pulses > 0 ==> p > 0.0
  {
    if pulses == 0 then 0.0 else ScanPower(pulses - 1) + PulsePower
  }

  /** Adding 0.001 × MULTIPLIER once per counted line is multiplying the count by it. */
  lemma {:induction false} ScanPowerIsProduct(pulses: nat)
    ensures ScanPower(pulses) == pulses as real * PulsePower
  {
    if pulses > 0 {
      ScanPowerIsProduct(pulses - 1);
      assert pulses as real * PulsePower == (pulses - 1) as real * PulsePower + PulsePower;
    }
  }

  /** The display loop itself: walk the lines newest first, adding one pulse's power to every
      window the line is strictly after, and stop at a short line or after a line strictly
      before the hour threshold. Its three sums are the power of the recursive tallies. */
  method ScanPowers(newestFirst: seq<LogLine>, now: real) returns (five: real, half: real, hour: real)
    ensures var a := ScanBackward(newestFirst, now);
      five == ScanPower(a.five) && half == ScanPower(a.half) && hour == ScanPower(a.hour)
  {
    five, half, hour := 0.0, 0.0, 0.0;
    ghost var seen := Tally(0, 0, 0);
    var i := 0;
    while i < |newestFirst|
      invariant 0 <= i <= |newestFirst|
      invariant var rest := ScanBackward(newestFirst[i..], now); var all := ScanBackward(newestFirst, now);
        seen.five + rest.five == all.five && seen.half + rest.half == all.half && seen.hour + rest.hour == all.hour
      invariant five == ScanPower(seen.five) && half == ScanPower(seen.half) && hour == ScanPower(seen.hour)
    {
      if newestFirst[i].Short? {
        break;
      }
      var t := newestFirst[i].epoch;
      ScanStep(newestFirst[i..], now);
      assert newestFirst[i..][1..] == newestFirst[i + 1..];
      AddPulsePowers(seen, t, now);
      if t > now - 300.0 {
        five := five + PulsePower;
      }
      if t > now - 1800.0 {
        half := half + PulsePower;
      }
      if t > now - 3600.0 {
        hour := hour + PulsePower;
      }
      seen := Plus(seen, Here(t, now));
      if t < now - 3600.0 {
        break;
      }
      i := i + 1;
    }
    if i < |newestFirst| && newestFirst[i].Short? {
      assert ScanBackward(newestFirst[i..], now) == Tally(0, 0, 0);
    }
  }

  /** Adding one line's pulses to the accumulated powers. */
  lemma {:induction false} AddPulsePowers(seen: Tally, t: real, now: real)
    ensures var next := Plus(seen, Here(t, now));
      && ScanPower(next.five) == ScanPower(seen.five) + (if t > now - 300.0 then PulsePower else 0.0)
      && ScanPower(next.half) == ScanPower(seen.half) + (if t > now - 1800.0 then PulsePower else 0.0)
      && ScanPower(next.hour) == ScanPower(seen.hour) + (if t > now - 3600.0 then PulsePower else 0.0)
  {
  }

  /** One step of the scan over a stamped line. */
  lemma {:induction false} ScanStep(lines: seq<LogLine>, now: real)
    requires |lines| > 0 && lines[0].Stamped?
    ensures var t := lines[0].epoch;
      ScanBackward(lines, now) ==
        if t < now - 3600.0 then Here(t, now) else Plus(Here(t, now), ScanBackward(lines[1..], now))
  {
  }

  /** Lines strictly after t, wherever they are. */
  function CountAbove(lines: seq<LogLine>, t: real): nat
    decreases |lines|
  {
    if |lines| == 0 then 0
    else (if lines[0].Stamped? && lines[0].epoch > t then 1 else 0) + CountAbove(lines[1..], t)
  }

  predicate NewestFirst(lines: seq<LogLine>) {
    && (forall i :: 0 <= i < |lines| ==> lines[i].Stamped?)
    && (forall i, j :: 0 <= i < j < |lines| ==> lines[j].epoch <= lines[i].epoch)
  }

  lemma {:induction false} NoneAbove(lines: seq<LogLine>, bound: real, t: real)
    requires forall i :: 0 <= i < |lines| ==> lines[i].Stamped? && lines[i].epoch <= bound
    requires bound <= t
    ensures CountAbove(lines, t) == 0
    decreases |lines|
  {
    if |lines| > 0 { NoneAbove(lines[1..], bound, t); }
  }

  /** On a log whose lines are all stamped and come newest first, stopping early loses
      nothing: the scan counts every line after each threshold. */
  lemma {:induction false} ScanCountsWindows(lines: seq<LogLine>, now: real)
    requires NewestFirst(lines)
    ensures var a := ScanBackward(lines, now);
      && a.five == CountAbove(lines, now - 300.0)
      && a.half == CountAbove(lines, now - 1800.0)
      && a.hour == CountAbove(lines, now - 3600.0)
    decreases |lines|
  {
    if |lines| > 0 {
      var t := lines[0].epoch;
      var rest := lines[1..];
      assert forall i :: 0 <= i < |rest| ==> rest[i] == lines[i + 1];
      if t < now - 3600.0 {
        NoneAbove(rest, t, now - 300.0);
        NoneAbove(rest, t, now - 1800.0);
        NoneAbove(rest, t, now - 3600.0);
      } else {
        assert NewestFirst(rest);
        ScanCountsWindows(rest, now);
      }
    }
  }

  /** A line the scan stops at: a short line, or one strictly before the hour threshold. */
  predicate StopsScan(l: LogLine, now: real) {
    l.Short? || l.epoch < now - 3600.0
  }

  /** Whatever comes after a line the scan stops at is never looked at. */
  lemma {:induction false} ScanStopsAt(a: seq<LogLine>, l: LogLine, b: seq<LogLine>, now: real)
    requires StopsScan(l, now)
    ensures ScanBackward(a + [l] + b, now) == ScanBackward(a + [l], now)
    decreases |a|
  {
    if |a| == 0 {
      assert (a + [l] + b)[0] == l && (a + [l])[0] == l;
    } else {
      assert (a + [l] + b)[0] == a[0] && (a + [l])[0] == a[0];
      assert (a + [l] + b)[1..] == a[1..] + [l] + b;
      assert (a + [l])[1..] == a[1..] + [l];
      ScanStopsAt(a[1..], l, b, now);
    }
  }

  /** A short line ends the scan wherever it is: no line older than it is counted. */
  lemma {:induction false} ShortLineStopsScan(a: seq<LogLine>, b: seq<LogLine>, c: seq<LogLine>, now: real)
    ensures ScanBackward(a + [Short] + b, now) == ScanBackward(a + [Short] + c, now)
  {
    ScanStopsAt(a, Short, b, now);
    ScanStopsAt(a, Short, c, now);
  }

  /** The first stamped line strictly before the hour threshold is the last one looked at. */
  lemma {:induction false} OldLineStopsScan(a: seq<LogLine>, t: real, b: seq<LogLine>, c: seq<LogLine>, now: real)
    requires t < now - 3600.0
    ensures ScanBackward(a + [Stamped(t)] + b, now) == ScanBackward(a + [Stamped(t)] + c, now)
  {
    ScanStopsAt(a, Stamped(t), b, now);
    ScanStopsAt(a, Stamped(t), c, now);
  }

  /** A short line hides a pulse that the windows would otherwise count. */
  lemma {:induction false} ShortLineHidesPulse(now: real)
    ensures ScanBackward([Short, Stamped(now)], now) == Tally(0, 0, 0)
    ensures CountAbove([Short, Stamped(now)], now - 300.0) == 1
  {
    var lines := [Short, Stamped(now)];
    assert lines[1..] == [Stamped(now)];
    assert CountAbove([Stamped(now)], now - 300.0) == 1;
  }
}

=== FILE: wrappers.dfy ===
/** Failure-carrying values used where the source raises or returns "nothing yet". */
module Wrappers {

  datatype Option<+T> = None | Some(value: T)

  datatype Result<+T, +E> = Ok(value: T) | Err(error: E)
}
